=== FILE: README.md ===
# cpp-sockets: ring buffers and socket addresses in Dafny

This project models the core of the `nw` C++ socket library.

- **The byte ring buffer `nw::buffer<SIZE>`.** Its input and output
  subclasses `ibuffer`/`obuffer` fill it from and drain it to a transfer
  function. The older single-class buffer, whose direction is a field, is
  modelled too.
- **The family-tagged socket address `nw::addr<FAMILY>`.**
- **The name tables for address families and socket types.**

## Files

- `typedef.dfy` (module `Typedef`): fixed-width integers, `sa_family` and
  `sock_type`, the library's exceptions as an `Error` value, and the
  `sa_family_str`/`sock_type_str` tables.
- `buffer.dfy` (module `Ring`): the class `Buffer` for
  `srcs/buffer/nw_buffer.hpp`. It holds an `array<int8>` of SIZE bytes, the
  `get`/`put` offsets and the `is_full`/`eof` flags.
  - `Contents()` is the sequence of held bytes, oldest first.
  - `getn`/`putn` are proved against it: `getn` hands out a prefix and leaves
    the rest, and `putn` appends. Both state their copies pointwise.
  - The ring invariant is `Coherent()` (the full flag implies that the
    offsets meet). `Rewound()` says an empty buffer has both offsets at 0.
- `ibuffer.dfy` (module `InputRing`) and `obuffer.dfy` (module
  `OutputRing`): the subclasses.
  - The C++ classes derive from `buffer<SIZE>`. Here each holds the `Buffer`
    it extends (`ring`), and its `sync` updates that object's fields.
  - The transfer function is a parameter: a function from the run it is
    offered to a reply `(ret, data)`. For input, `data` stands for what the
    function wrote into the run.
  - The scenarios drive `sync` with two fixed transfer functions:
    `Ring.SendAll` reports every byte offered as sent, and
    `LegacyRing.FillOnes` fills every byte offered. They are fixtures
    standing for a peer, not models of the library's code.
- `legacy_buffer.dfy` (module `LegacyRing`): the older
  `srcs/nw_buffer.hpp`. It has one class with a direction and a stored
  transfer function, and `sync` works on the offset the direction selects.
  Its `getn`/`putn` wrap paths do not reduce the offsets modulo SIZE, so the
  offsets range over [0, SIZE] here.
- `addr.dfy` (module `Addresses`): `addr<UNSPEC|INET|INET6|INET6V4M>` as one
  datatype over the `sockaddr_storage` each object owns.
  - The `sockaddr_in`/`sockaddr_in6` views of the C++ casts are byte
    encodings and decodings of that storage, with their round trips proved.
  - `htons`/`htonl` are byte swaps on a little-endian host.
  - `inet_aton`, `inet_ntoa`, `inet_pton` and `inet_ntop` are the C
    library's, so they are a record of function parameters.

## Model

| member | source | states |
|---|---|---|
| Typedef.SaFamilyStr | srcs/nw_typedef.cpp:11-19 | INET, INET6 and UNSPEC map to "AF_INET", "AF_INET6" and "AF_UNSPEC"; every other tag, INET6V4M included, gives out_of_range, and only those three succeed |
| Typedef.SockTypeStr | srcs/nw_typedef.cpp:30-40 | STREAM, DGRAM, SEQPACKET, RAW and RDM map to their names; UNSPEC alone gives out_of_range |
| Typedef.SaFamilyStrInjective | srcs/nw_typedef.cpp:11-15 | distinct families get distinct names |
| Typedef.SockTypeStrInjective | srcs/nw_typedef.cpp:30-36 | distinct socket types get distinct names |
| Ring.Buffer.constructor | srcs/buffer/nw_buffer.hpp:23-27 | zeroed array, offsets 0, both flags clear, contents empty |
| Ring.Buffer.Size | srcs/buffer/nw_buffer.hpp:49-51 | the capacity is the array length SIZE, which is positive |
| Ring.Buffer.InAvail | srcs/buffer/nw_buffer.hpp:70-76 | held bytes never exceed SIZE and are 0 exactly when the buffer is empty (not full and get == put) |
| Ring.Buffer.Contents | srcs/buffer/nw_buffer.hpp:70-76 | the held bytes, oldest first, number in_avail() |
| Ring.Buffer.IsFull | srcs/buffer/nw_buffer.hpp:53-55 | `is_full`: under the ring invariant the buffer reports itself full exactly when in_avail() == size() |
| Ring.Buffer.IsEmpty | srcs/buffer/nw_buffer.hpp:57-59 | `is_empty` holds exactly when in_avail() is 0 |
| Ring.Buffer.Eof | srcs/buffer/nw_buffer.hpp:61-63 | `eof` has no contract of its own: it is the flag that only a sync whose function returned 0 sets (see the Sync rows) and only clear resets |
| Ring.Buffer.AvailIsDistance | srcs/buffer/nw_buffer.hpp:70-76 | when not full, in_avail() is (put - get) mod SIZE |
| Ring.Buffer.FreeRun | srcs/buffer/nw_ibuffer.hpp:24 | the free run at put stays inside the array and, when not full, is non-empty and no longer than the free space |
| Ring.Buffer.DataRun | srcs/buffer/nw_obuffer.hpp:26 | the held run at get stays inside the array and, when not empty, is non-empty and no longer than in_avail() |
| Ring.Buffer.DataRunIsOldest | srcs/buffer/nw_obuffer.hpp:26 | the run at get is the oldest part of the contents |
| Ring.Buffer.Clear | srcs/buffer/nw_buffer.hpp:65-68 | offsets 0, both flags clear, contents empty, invariant restored |
| Ring.Buffer.Sync | srcs/buffer/nw_buffer.hpp:78-80 | the base sync returns what the function returns for an empty run; its frame (no modifies clause) is what states that the buffer is unchanged |
| Ring.Buffer.GetN | srcs/buffer/nw_buffer.hpp:82-110 | copies min(n, in_avail()) bytes, the oldest first, into dst[0..] (the rest of dst kept), and they leave the contents; with n == 0 or an empty buffer nothing changes; otherwise the full flag is cleared, an emptied buffer has both offsets at 0, and one that still holds bytes keeps put and has get advanced by the count modulo SIZE; the invariant is kept |
| Ring.Buffer.GetTailHead | srcs/buffer/nw_buffer.hpp:96-109 | the wrap path: tail then head, count min(n, in_avail()), put kept and get advanced by the count modulo SIZE while bytes remain, both reset to 0 when they meet |
| Ring.Buffer.Take | srcs/buffer/nw_buffer.hpp:99-102 | one memcpy out of the array and get advanced modulo SIZE |
| Ring.Buffer.PutN | srcs/buffer/nw_buffer.hpp:112-139 | appends the first min(n, SIZE - in_avail()) bytes of src (none when full) to the contents; get is unchanged, nothing changes when 0 bytes go in, and the full flag afterwards holds exactly when put meets get (invariant kept) |
| Ring.Buffer.PutTailHead | srcs/buffer/nw_buffer.hpp:125-138 | the wrap path: [put, SIZE) then [0, get), put reduced modulo SIZE, full set when put meets get |
| Ring.Buffer.Give | srcs/buffer/nw_buffer.hpp:128-131 | one memcpy into the array and put advanced modulo SIZE |
| Ring.MemCopy | srcs/buffer/nw_buffer.hpp:89 | memcpy: dst[at..at+len] holds the data, every other byte of dst is kept |
| Ring.TailThenHead | srcs/buffer/nw_buffer.hpp:96-108 | the tail and head copies of getn together are the first min(n, in_avail()) held bytes, and the offsets left behind describe the rest |
| Ring.AppendInGap | srcs/buffer/nw_buffer.hpp:115-122 | bytes written into the gap before get extend the contents by exactly those bytes |
| Ring.AppendTailHead | srcs/buffer/nw_buffer.hpp:125-138 | bytes written at put and on from index 0 extend the contents by exactly those bytes, with put reduced modulo SIZE |
| Ring.AppendWrapping | srcs/buffer/nw_buffer.hpp:128-135 | the case of putn's wrap path that reaches the end of the array |
| Ring.DropRun | srcs/buffer/nw_obuffer.hpp:33-35 | removing r bytes of the run at get leaves the rest of the contents |
| Ring.WrapAroundScenario | srcs/buffer/nw_buffer.hpp:82-139 | size 8: putn 6, getn 2, putn 4 accepts 4 and leaves the buffer full, a further putn accepts 0, getn 8 returns bytes 3..10 in order |
| InputRing.IBuffer.constructor | srcs/buffer/nw_ibuffer.hpp:18 | an empty buffer of the given size |
| InputRing.IBuffer.Sync | srcs/buffer/nw_ibuffer.hpp:21-35 | a full buffer returns 0 and is untouched; the function is given the free run at put; 0 sets eof with the array, contents and offsets kept; a negative result returns -1 with nothing changed; r > 0 appends the r bytes received, in_avail() grows by r, eof kept; the invariant is kept |
| InputRing.IBuffer.Receive | srcs/buffer/nw_ibuffer.hpp:31-33 | received bytes are appended, put advances modulo SIZE, full set when put meets get |
| OutputRing.OBuffer.constructor | srcs/buffer/nw_obuffer.hpp:18 | an empty buffer of the given size |
| OutputRing.OBuffer.Sync | srcs/buffer/nw_obuffer.hpp:23-37 | as written: an empty buffer returns 0 untouched; the function is given the run at get; 0 sets eof with offsets kept; negative returns -1 with nothing changed; r > 0 moves get by r modulo SIZE and resets both offsets to 0 when it meets put; is_full is never changed |
| OutputRing.OBuffer.Consume | srcs/buffer/nw_obuffer.hpp:33-35 | from a buffer that is not full the sent bytes leave the contents; from a full one the invariant is lost, and after sending all SIZE bytes the buffer reports all SIZE bytes held again |
| OutputRing.FullDrainScenario | srcs/buffer/nw_obuffer.hpp:23-37 | after putn of 4 bytes into a 4-byte buffer and a sync that sends all 4, the buffer is still full, putn accepts 0 and getn returns the same 4 bytes |
| OutputRing.OBuffer.DrainSync | srcs/buffer/nw_obuffer.hpp:23-37 | sync with is_full cleared as getn does: the sent bytes leave the contents, in_avail() drops by r, invariant kept |
| OutputRing.OBuffer.ConsumeClearing | srcs/buffer/nw_obuffer.hpp:33-35 | the corrected offset update: sent bytes leave, full cleared, invariant kept |
| OutputRing.ClearedDrainScenario | srcs/buffer/nw_obuffer.hpp:23-37 | with the flag cleared the same exchange leaves the buffer empty, and it accepts new bytes |
| LegacyRing.Buffer.constructor | srcs/nw_buffer.hpp:29-35 | direction and function fixed, offsets 0, flags clear, contents empty |
| LegacyRing.Buffer.InAvail | srcs/nw_buffer.hpp:78-84 | the same formula: at most SIZE, 0 when empty, and 0 only when empty while both offsets are below SIZE |
| LegacyRing.Buffer.Contents | srcs/nw_buffer.hpp:78-84 | the held bytes, oldest first, number in_avail() |
| LegacyRing.Buffer.Clear | srcs/nw_buffer.hpp:69-72 | offsets 0, flags clear, direction kept |
| LegacyRing.Buffer.IsFull | srcs/nw_buffer.hpp:61-63 | `is_full`: under the ring invariant a full buffer holds SIZE bytes, and with both offsets below SIZE it is full exactly then |
| LegacyRing.Buffer.IsEmpty | srcs/nw_buffer.hpp:65-67 | `is_empty`: an empty buffer holds no bytes, and with both offsets below SIZE it is empty exactly when in_avail() is 0; that a buffer with an offset at SIZE can hold no bytes without being empty is shown by LegacyRing.ReceiveLossScenario |
| LegacyRing.Buffer.Eof | srcs/nw_buffer.hpp:74-76 | `eof` has no contract of its own: it is the flag that only a sync whose function returned 0 sets (see LegacyRing.Buffer.Sync) and only clear resets |
| LegacyRing.Buffer.Idle | srcs/nw_buffer.hpp:87 | the early return of sync: with both offsets below SIZE and the ring invariant, an input buffer with no free byte or an output buffer with no held byte |
| LegacyRing.Buffer.SyncAvail | srcs/nw_buffer.hpp:183-186 | `_sync_avail[dir]` taken at `_sync_off` (put for input, get for output, line 34): the run stays inside the array; it is the held run at get for output and the free run at put for input, non-empty and no longer than the held bytes or the free space while the offsets are in range |
| LegacyRing.Buffer.Sync | srcs/nw_buffer.hpp:86-106 | an input-and-full or output-and-empty buffer returns 0 untouched; 0 sets eof with offsets kept; negative returns -1 with nothing changed; r > 0 for input appends what was received (see Receive) and for output advances get (see Send) |
| LegacyRing.Buffer.Receive | srcs/nw_buffer.hpp:93-97 | put moves by r modulo SIZE, full set when it meets get; the data is appended, except from get = SIZE, where it is lost |
| LegacyRing.Buffer.Send | srcs/nw_buffer.hpp:93-100 | get moves by r modulo SIZE, both offsets reset on meeting put, full kept; the r oldest bytes leave the contents, full or not, except when the flag is set and get meets put, or put = SIZE and get reaches SIZE: then the whole array is held again |
| LegacyRing.Buffer.GetN | srcs/nw_buffer.hpp:108-136 | copies and removes the oldest min(n, in_avail()) bytes; get advances without reduction modulo SIZE and both reset on meeting put; with n == 0 or an empty buffer nothing changes |
| LegacyRing.Buffer.GetTailHead | srcs/nw_buffer.hpp:122-135 | the wrap path as written: get = get + gb, or gf when the head was used |
| LegacyRing.Buffer.TakeTailHead | srcs/nw_buffer.hpp:125-132 | the two memcpy calls of the wrap path copy the first gb + gf held bytes |
| LegacyRing.Buffer.PutN | srcs/nw_buffer.hpp:138-165 | appends min(n, SIZE - in_avail()) bytes; put advances by a single subtraction of SIZE, so it can stop at SIZE; full exactly when put meets get; with n == 0 or a full buffer nothing changes |
| LegacyRing.Buffer.PutTailHead | srcs/nw_buffer.hpp:151-164 | the wrap path as written: put = put + pb, or pf when the head was used |
| LegacyRing.LegacyTailThenHead | srcs/nw_buffer.hpp:122-134 | the wrap-path copies of getn are the first held bytes and the offsets left describe the rest |
| LegacyRing.LegacyAppend | srcs/nw_buffer.hpp:151-163 | the wrap-path writes of putn append the data to the contents |
| LegacyRing.Advance | srcs/nw_buffer.hpp:127-131 | an offset moved without modulo ends at most at SIZE, and agrees with the modulo whenever it stays below SIZE |
| LegacyRing.ResendScenario | srcs/nw_buffer.hpp:151-157 | an output buffer of 4 given 4 bytes ends with put = 4 = SIZE, outside [0, SIZE), and the full flag clear; one sync sends all 4 and returns 0, get wraps to 0, yet in_avail() is still 4 |
| LegacyRing.ReceiveLossScenario | srcs/nw_buffer.hpp:122-128 | an input buffer of 4 filled by sync and emptied by getn(4) ends with get = 4 = SIZE, outside [0, SIZE), and put = 0; the next sync's 4 bytes leave in_avail() at 0 in a buffer that is not empty |
| Addresses.Le16 | srcs/nw_addr.hpp:90-95 | a 16-bit field as it lies in memory on the little-endian host |
| Addresses.FromLe16 | srcs/nw_addr.hpp:144 | reading a 16-bit field back from memory is the inverse of storing it |
| Addresses.Le32 | srcs/nw_addr.hpp:188-194 | a 32-bit field as it lies in memory |
| Addresses.FromLe32 | srcs/nw_addr.hpp:249-251 | reading a 32-bit field back is the inverse of storing it |
| Addresses.LeRoundTrip | srcs/nw_addr.hpp:144 | decoding undoes encoding |
| Addresses.Swap16 | srcs/nw_addr.hpp:92 | htons/ntohs exchange the two bytes in memory |
| Addresses.Swap32 | srcs/nw_addr.hpp:191-193 | htonl/ntohl reverse the four bytes in memory |
| Addresses.SwapInvolutive | srcs/nw_addr.hpp:249-251 | ntohs(htons(p)) == p and ntohl(htonl(x)) == x, and the swapped value lies in memory most significant byte first |
| Addresses.ZeroStorage | srcs/nw_addr.hpp:28 | the default storage: family UNSPEC, every byte zero, so both the sockaddr_in and the sockaddr_in6 view read 0 in every field |
| Addresses.StoreIn | srcs/nw_addr.hpp:104 | writing through the sockaddr_in view replaces its 14 bytes and keeps the rest of the storage |
| Addresses.StoreIn6 | srcs/nw_addr.hpp:207 | writing through the sockaddr_in6 view replaces its 26 bytes and keeps the rest |
| Addresses.LoadStoreIn | srcs/nw_addr.hpp:101-105 | reading the sockaddr_in view (LoadIn, the cast of line 79) back gives what was written through it |
| Addresses.LoadStoreIn6 | srcs/nw_addr.hpp:204-208 | reading the sockaddr_in6 view (LoadIn6, the cast of line 174) back gives what was written through it |
| Addresses.StoreLoadIn | srcs/nw_addr.hpp:125 | writing a storage's own sockaddr_in or sockaddr_in6 view (LoadIn, LoadIn6) back leaves it unchanged, so the views lose nothing they cover |
| Addresses.GetFamily | srcs/nw_addr.hpp:34-36 | get_family is the tag every view of the storage reads alike |
| Addresses.SizeOf | srcs/nw_addr.hpp:81 | `_sizeof`: for an address whose storage carries its type's family (`Tagged`), the size of the struct that family names, never more than sizeof(sockaddr_storage) |
| Addresses.InetDefault | srcs/nw_addr.hpp:79-82 | family INET, port and address 0 |
| Addresses.InetOf | srcs/nw_addr.hpp:101-105 | the address holds exactly the given sockaddr_in |
| Addresses.InetNew | srcs/nw_addr.hpp:86-98 | succeeds exactly when inet_aton accepts the text, else logic_error "inet_aton: invalid address"; on success family INET, port htons(port), the address from inet_aton, sin_zero zero |
| Addresses.InetPortRoundTrip | srcs/nw_addr.hpp:90-95 | the stored port comes back by ntohs and lies in memory in network byte order |
| Addresses.InetCopy | srcs/nw_addr.hpp:108-115 | a copy or move holds the same sockaddr_in: family, port, address |
| Addresses.InetAssign | srcs/nw_addr.hpp:122-136 | assignment copies the source's sockaddr_in and keeps the rest of the target's storage |
| Addresses.InetFromStorage | srcs/nw_addr.hpp:153-156 | succeeds exactly when the tag is INET, else logic_error "addr_storage: invalid conversion"; on success the sockaddr_in view is the storage's |
| Addresses.Inet6Default | srcs/nw_addr.hpp:174-177 | family INET6 (also for INET6V4M), port, flowinfo and scope id 0 |
| Addresses.Inet6Of | srcs/nw_addr.hpp:204-208 | the address holds exactly the given sockaddr_in6 |
| Addresses.Inet6New | srcs/nw_addr.hpp:182-201 | succeeds exactly when inet_pton converts the text; 0 from it gives logic_error "inet_pton: invalid address", -1 gives system_error with errno; on success port htons, flowinfo and scope_id htonl, address from inet_pton |
| Addresses.Inet6FieldsRoundTrip | srcs/nw_addr.hpp:191-193 | port, flowinfo and scope_id come back by ntohs/ntohl |
| Addresses.Inet6Copy | srcs/nw_addr.hpp:211-218 | a copy or move holds the same sockaddr_in6 and stays plain or mapped |
| Addresses.Inet6Assign | srcs/nw_addr.hpp:225-239 | assignment copies the source's sockaddr_in6 and keeps the rest of the target's storage |
| Addresses.Inet6FromStorage | srcs/nw_addr.hpp:259-262 | succeeds exactly when the tag is INET6 (INET6V4M inherits this check), else logic_error |
| Addresses.UnspecDefault | srcs/nw_addr.hpp:340-343 | family UNSPEC, length 128 |
| Addresses.UnspecOf | srcs/nw_addr.hpp:348-365 | an INET or INET6 payload is copied through its view and the length is that view's size; any other tag keeps the whole storage and length 128 |
| Addresses.UnspecFrom | srcs/nw_addr.hpp:368-390 | copy, move and construction from INET/INET6/INET6V4M keep the family, take the family's length, and carry the source's sockaddr_in or sockaddr_in6 view, or for any other tag its whole storage |
| Addresses.WrapThenConvert | srcs/nw_addr.hpp:378-385 | wrapping an INET or INET6 address as UNSPEC and converting it back gives the address's copy |
| Addresses.UnspecAssignAsWritten | srcs/nw_addr.hpp:397-411 | as written: the whole storage is copied but the target keeps its own length |
| Addresses.UnspecAssignKeepsStaleSize | srcs/nw_addr.hpp:397-402 | an UNSPEC holding IPv4 assigned one holding IPv6 ends with IPv6 storage and length 16 |
| Addresses.UnspecAssign | srcs/nw_addr.hpp:397-411 | the corrected assignment copies the length too, so the length keeps agreeing with the family |
| Addresses.TypedConstructorsTagged | srcs/nw_addr.hpp:79-156 | every INET, INET6 and INET6V4M address the constructors, the checked conversions from a storage and the copies of a tagged address make carries its type's family, so its `_sizeof` is its struct's size |
| Addresses.UnspecConstructorsTagged | srcs/nw_addr.hpp:340-390 | every UNSPEC address the constructors make, and the corrected assignment of a tagged one, records the length its family calls for (SizeFor: 16 for INET, 28 for INET6, 128 otherwise) |
| Addresses.Decimal | srcs/nw_addr.hpp:144 | std::to_string of a non-negative value: digits only, no leading zero |
| Addresses.DecimalRoundTrip | srcs/nw_addr.hpp:144 | the decimal text denotes the value, so distinct values render distinctly |
| Addresses.InetText | srcs/nw_addr.hpp:140-148 | to_string of INET succeeds exactly when the family has a name, else out_of_range |
| Addresses.Inet6Text | srcs/nw_addr.hpp:243-254 | to_string of INET6: out_of_range for an unnamed family, failure when inet_ntop returns null, success exactly otherwise |
| Addresses.Inet6ToStringAsWritten | srcs/nw_addr.hpp:250 | as written, succeeds only when the text is shorter than 28 characters, and then agrees with the corrected rendering |
| Addresses.LongIpv6TextLost | srcs/nw_addr.hpp:245-250 | an address whose text has 28 characters or more fails as written and renders with the INET6_ADDRSTRLEN room |
| Addresses.ToString | srcs/nw_addr.hpp:415-431 | the corrected rendering (INET6 with the INET6_ADDRSTRLEN room; the code as written is Inet6ToStringAsWritten): INET and INET6 render through their views, INET6V4M and UNSPEC holding INET6 through INET6's; UNSPEC with any other tag renders `{ "family" :"AF_UNSPEC" }` |
| Addresses.WrappedRendersAlike | srcs/nw_addr.hpp:418-428 | an INET or INET6 address wrapped as UNSPEC renders as the address itself |
| Addresses.MappedRendersAsInet6 | srcs/nw_addr.hpp:320-322 | INET6V4M renders exactly as INET6 |
| Addresses.InetRendersPort | srcs/nw_addr.hpp:140-148 | an IPv4 address built from a port renders family AF_INET, that port in decimal and inet_ntoa's text |
| Addresses.Inet6RendersFields | srcs/nw_addr.hpp:243-254 | an IPv6 address built from its fields renders AF_INET6, port, flowinfo, inet_ntop's text and scope_id as given |

## Left out

- Sockets, `addrinfo`, `protoent`, the socket options, the exception
  classes and the command-line driver are not part of this model. They are
  system calls and declarations without logic of their own.
- The buffers' `to_string` JSON dumps and `operator<<` are left out. They
  are debugging output.
- `inet_aton`, `inet_ntoa`, `inet_pton` and the text `inet_ntop` produces
  are parameters (`Converters`), not modelled conversions. For the
  corrected rendering, the C library's text is assumed to fit
  INET6_ADDRSTRLEN (`NtopFits`).
- Addresses.Ntop: only the buffer-size check of `inet_ntop` is modelled
  (the text and its NUL must fit the room it is told of, else a null
  pointer); the text itself is the `Converters` parameter.
- Addresses.ToString: renders INET6, and so INET6V4M and UNSPEC holding
  INET6, with the corrected INET6_ADDRSTRLEN room. As written
  (srcs/nw_addr.hpp:250) the room is 28 and text of 28 characters or more
  fails; Inet6ToStringAsWritten and LongIpv6TextLost model that, and the
  "## Findings" row for that line records it.
- The transfer function is a pure function of the run it is offered. Two
  requirements on it are stated as preconditions rather than checked:
  - it reports at most the run's length (`Bounded`);
  - a receive function returns at least as many bytes as it reports
    (`Delivers`).
  A function that reports more than it was offered is outside the model.
- Ring.Buffer.Sync: the `ssize_t` result of the base `sync` is returned as
  an `int` in C++. The model keeps the unbounded value and does not model
  that truncation.
- The offsets are `nat` rather than `size_t`. With offsets below SIZE and
  runs of at most SIZE bytes, no unsigned wrap-around is reachable.
- Inheritance is modelled as composition. `ibuffer`/`obuffer` hold the
  buffer they extend, and INET6V4M is INET6 with a `mapped` flag. The
  `_sync_off` reference of the older buffer is a direction-selected field
  update. The `_stats` bitfield is plain fields.
- Default arguments are passed explicitly by the caller: the addresses'
  `"0.0.0.0"`, `"::"`, flowinfo and scope id 0, the older buffer's `dir::out`
  and no-op transfer function (srcs/nw_buffer.hpp:29), and the base `sync`'s
  no-op function (srcs/buffer/nw_buffer.hpp:78).
- Text with an embedded NUL is handed to the C functions whole, whereas
  `c_str()` would cut it at the NUL.
- getn's destination is an `array<int8>` distinct from the buffer, and
  putn's source is a sequence. Overlapping memory is not modelled.
- The move constructors and move assignments are the same members as the
  copies, since they copy too.

## Findings

| source | as written | input that shows it | evidently intended | confidence | as-written member | corrected member |
|---|---|---|---|---|---|---|
| srcs/buffer/nw_obuffer.hpp:33-35 | a positive send never clears `is_full` | SIZE 4: putn 4 bytes, sync sending all 4 | clear `is_full` once bytes leave, as getn does (srcs/buffer/nw_buffer.hpp:85) | high, not executed | OutputRing.FullDrainScenario | OutputRing.OBuffer.DrainSync |
| srcs/nw_buffer.hpp:154-157 | the wrap path of putn adds pb to put without modulo, so put can stop at SIZE with `is_full` clear | output SIZE 4: putn 4 bytes, then sync sending all 4 leaves in_avail() at 4 and the bytes are sent again | reduce put modulo SIZE as the newer revision does | high, not executed | LegacyRing.ResendScenario | Ring.Buffer.PutN |
| srcs/nw_buffer.hpp:125-128 | the wrap path of getn adds gb to get without modulo, so get can stop at SIZE | input SIZE 4: sync receiving 4, getn 4, then sync receiving 4 leaves in_avail() at 0 | reduce get modulo SIZE as the newer revision does | high, not executed | LegacyRing.ReceiveLossScenario | Ring.Buffer.GetN |
| srcs/nw_addr.hpp:250 | `inet_ntop` is told the buffer holds sizeof(sockaddr_in6) = 28 bytes | ffff:ffff:ffff:ffff:ffff:ffff:ffff:ffff (39 characters) | pass INET6_ADDRSTRLEN, the size of the buffer | high, not executed | Addresses.LongIpv6TextLost | Addresses.Inet6RendersFields |
| srcs/nw_addr.hpp:397-411 | UNSPEC `operator=` copies the storage but keeps the target's `_sizeof` | UNSPEC wrapping INET (16) assigned an UNSPEC wrapping INET6 (28) | copy the length with the storage | medium, not executed | Addresses.UnspecAssignKeepsStaleSize | Addresses.UnspecAssign |

=== FILE: addr.dfy ===
/** The family-tagged socket addresses of srcs/nw_addr.hpp. Every address
    object owns one `sockaddr_storage` and reads it through the view of its
    family (`sockaddr_in`, `sockaddr_in6`, or the storage itself), together
    with the length `_sizeof` it hands to socket calls. The storage is kept
    here as its family tag and the bytes after it, and each view is a decoding
    of those bytes, so the casts between views are encodings and decodings
    whose round trips are proved. The host is little-endian. */
module Addresses {
  import opened Typedef

  const SIZEOF_IN: nat := 16          // sizeof(struct sockaddr_in)
  const SIZEOF_IN6: nat := 28         // sizeof(struct sockaddr_in6)
  const SIZEOF_STORAGE: nat := 128    // sizeof(struct sockaddr_storage)
  const INET6_ADDRSTRLEN: nat := 46   // longest IPv6 text and its terminating NUL

  /** The bytes of a storage after its two-byte family tag. */
  type StorageData = s: seq<uint8> | |s| == 126 witness seq(126, _ => 0)
  /** `sin_zero` */
  type Pad8 = s: seq<uint8> | |s| == 8 witness seq(8, _ => 0)
  /** `struct in6_addr` */
  type In6Addr = s: seq<uint8> | |s| == 16 witness seq(16, _ => 0)

  /** `struct sockaddr_storage`: `ss_family` and the bytes after it. */
  datatype Storage = Storage(family: SaFamily, data: StorageData)

  /** `struct sockaddr_in`, port and address as stored (network byte order). */
  datatype SockaddrIn = SockaddrIn(family: SaFamily, port: uint16, addr: uint32, zero: Pad8)

  /** `struct sockaddr_in6`, port, flow info and scope id as stored (network byte order). */
  datatype SockaddrIn6 = SockaddrIn6(family: SaFamily, port: uint16, flowinfo: uint32, addr: In6Addr, scopeId: uint32)

  /** What `inet_pton` returns: 1 with the converted address, 0 for text
      that is not an address, -1 with errno set. */
  datatype PtonResult = Converted(addr: In6Addr) | NotAnAddress | PtonFailed(errno: int)

  /** The C library's text conversions, which are not part of this model:
      `inet_aton`, `inet_ntoa`, `inet_pton(AF_INET6, ...)` and the text
      `inet_ntop(AF_INET6, ...)` writes when its buffer is large enough. */
  datatype Converters = Converters(
    aton: string -> Option<uint32>,
    ntoa: uint32 -> string,
    pton: string -> PtonResult,
    ntop: In6Addr -> string)

  /** The C library's promise that IPv6 text fits INET6_ADDRSTRLEN. */
  ghost predicate NtopFits(conv: Converters)
  {
    forall a: In6Addr :: |conv.ntop(a)| < INET6_ADDRSTRLEN
  }

  /** `addr<FAMILY>`: the storage it owns and, for UNSPEC, the length it
      records; `addr<INET6V4M>` is the INET6 address with `mapped` set. */
  datatype Addr =
    | Unspec(st: Storage, size: nat)
    | Inet(st: Storage)
    | Inet6(st: Storage, mapped: bool)

  // ---------------------------------------------------------------- bytes

  /** One base-256 digit split off: x is 256 q + r with r a byte. */
  lemma Base256(q: int, r: int)
    requires 0 <= r < 256
    ensures (256 * q + r) / 256 == q && (256 * q + r) % 256 == r
  {
  }

  /** A 16-bit value as it lies in memory, low byte first. */
  function Le16(v: uint16): (b: seq<uint8>)
    ensures |b| == 2 && b[0] as int + 256 * b[1] as int == v as int
  {
    [(v % 256) as uint8, (v / 256) as uint8]
  }

  function FromLe16(b: seq<uint8>): (v: uint16)
    requires |b| == 2
    ensures Le16(v) == b
  {
    Base256(b[1] as int, b[0] as int);
    (b[0] as int + 256 * b[1] as int) as uint16
  }

  /** A 32-bit value as it lies in memory, low byte first. */
  function Le32(v: uint32): (b: seq<uint8>)
    ensures |b| == 4
    ensures b[0] as int + 256 * (b[1] as int + 256 * (b[2] as int + 256 * b[3] as int)) == v as int
  {
    var x := v as int;
    [(x % 256) as uint8, (x / 256 % 256) as uint8, (x / 256 / 256 % 256) as uint8, (x / 256 / 256 / 256) as uint8]
  }

  function FromLe32(b: seq<uint8>): (v: uint32)
    requires |b| == 4
    ensures Le32(v) == b
  {
    var hi := b[2] as int + 256 * b[3] as int;
    var mid := b[1] as int + 256 * hi;
    Base256(b[3] as int, b[2] as int);
    Base256(hi, b[1] as int);
    Base256(mid, b[0] as int);
    (b[0] as int + 256 * mid) as uint32
  }

  /** Decoding undoes encoding, for both widths. */
  lemma LeRoundTrip(v: uint16, w: uint32)
    ensures FromLe16(Le16(v)) == v && FromLe32(Le32(w)) == w
  {
  }

  /** `htons`/`ntohs` on a little-endian host: the two bytes exchanged. */
  function Swap16(v: uint16): (r: uint16)
    ensures Le16(r) == [Le16(v)[1], Le16(v)[0]]
  {
    FromLe16([Le16(v)[1], Le16(v)[0]])
  }

  /** `htonl`/`ntohl` on a little-endian host: the four bytes reversed. */
  function Swap32(v: uint32): (r: uint32)
    ensures Le32(r) == [Le32(v)[3], Le32(v)[2], Le32(v)[1], Le32(v)[0]]
  {
    var b := Le32(v);
    FromLe32([b[3], b[2], b[1], b[0]])
  }

  /** ntohs undoes htons and ntohl undoes htonl, and a swapped value lies in
      memory most significant byte first, which is network byte order. */
  lemma SwapInvolutive(v: uint16, w: uint32)
    ensures Swap16(Swap16(v)) == v && Swap32(Swap32(w)) == w
    ensures Le16(Swap16(v)) == [(v / 256) as uint8, (v % 256) as uint8]
    ensures Le32(Swap32(w)) ==
      [(w / 0x100_0000) as uint8, (w / 0x1_0000 % 0x100) as uint8, (w / 0x100 % 0x100) as uint8, (w % 0x100) as uint8]
  {
    LeRoundTrip(Swap16(Swap16(v)), Swap32(Swap32(w)));
    assert Le16(Swap16(Swap16(v))) == Le16(v);
    LeRoundTrip(v, w);
    assert Le32(Swap32(Swap32(w))) == Le32(w);
  }

  // ---------------------------------------------------------------- views

  /** `addr_storage()`: family UNSPEC and every byte zero, so that both
      views read zero in every field. */
  function ZeroStorage(): (st: Storage)
    ensures st.family == UNSPEC && forall k :: 0 <= k < 126 ==> st.data[k] == 0
    ensures LoadIn(st) == SockaddrIn(UNSPEC, 0, 0, seq(8, _ => 0))
    ensures LoadIn6(st) == SockaddrIn6(UNSPEC, 0, 0, seq(16, _ => 0), 0)
  {
    var d: StorageData := seq(126, _ => 0);
    assert d[..2] == Le16(0) && d[2..6] == d[22..26] == Le32(0);
    assert d[6..14] == seq(8, _ => 0) && d[6..22] == seq(16, _ => 0);
    LeRoundTrip(0, 0);
    Storage(UNSPEC, d)
  }

  /** Assignment through the `sockaddr_in` view: the first 14 bytes after
      the family are replaced, the rest of the storage is kept. */
  function StoreIn(st: Storage, sin: SockaddrIn): (r: Storage)
    ensures r.family == sin.family && r.data[14..] == st.data[14..]
  {
    Storage(sin.family, Le16(sin.port) + Le32(sin.addr) + sin.zero + st.data[14..])
  }

  /** The `sockaddr_in` view of a storage. */
  function LoadIn(st: Storage): (sin: SockaddrIn)
    ensures sin.family == st.family
  {
    SockaddrIn(st.family, FromLe16(st.data[..2]), FromLe32(st.data[2..6]), st.data[6..14])
  }

  /** Assignment through the `sockaddr_in6` view: the first 26 bytes after
      the family are replaced, the rest of the storage is kept. */
  function StoreIn6(st: Storage, s6: SockaddrIn6): (r: Storage)
    ensures r.family == s6.family && r.data[26..] == st.data[26..]
  {
    Storage(s6.family, Le16(s6.port) + Le32(s6.flowinfo) + s6.addr + Le32(s6.scopeId) + st.data[26..])
  }

  /** The `sockaddr_in6` view of a storage. */
  function LoadIn6(st: Storage): (s6: SockaddrIn6)
    ensures s6.family == st.family
  {
    SockaddrIn6(st.family, FromLe16(st.data[..2]), FromLe32(st.data[2..6]), st.data[6..22],
      FromLe32(st.data[22..26]))
  }

  /** Reading a view back gives what was stored through it. */
  lemma LoadStoreIn(st: Storage, sin: SockaddrIn)
    ensures LoadIn(StoreIn(st, sin)) == sin
  {
    var d := StoreIn(st, sin).data;
    assert d[..2] == Le16(sin.port) && d[2..6] == Le32(sin.addr) && d[6..14] == sin.zero;
    LeRoundTrip(sin.port, sin.addr);
  }

  lemma LoadStoreIn6(st: Storage, s6: SockaddrIn6)
    ensures LoadIn6(StoreIn6(st, s6)) == s6
  {
    var d := StoreIn6(st, s6).data;
    assert d[..2] == Le16(s6.port) && d[2..6] == Le32(s6.flowinfo);
    assert d[6..22] == s6.addr && d[22..26] == Le32(s6.scopeId);
    LeRoundTrip(s6.port, s6.flowinfo);
    LeRoundTrip(s6.port, s6.scopeId);
  }

  /** Storing a storage's own view leaves it as it was. */
  lemma StoreLoadIn(st: Storage)
    ensures StoreIn(st, LoadIn(st)) == st && StoreIn6(st, LoadIn6(st)) == st
  {
    var d := st.data;
    assert d == d[..2] + d[2..6] + d[6..14] + d[14..];
    assert d == d[..2] + d[2..6] + d[6..22] + d[22..26] + d[26..];
  }

  /** `get_family`: the tag of the storage, which every view reads alike. */
  function GetFamily(a: Addr): (f: SaFamily)
    ensures f == LoadIn(a.st).family == LoadIn6(a.st).family
  {
    a.st.family
  }

  /** `_sizeof`: the length of the address handed to socket calls. For an
      address whose storage carries its type's family it is the size of the
      struct that family names. */
  function SizeOf(a: Addr): (n: nat)
    ensures a.Inet? ==> n == SIZEOF_IN
    ensures a.Inet6? ==> n == SIZEOF_IN6
    ensures Tagged(a) ==> n == SizeFor(GetFamily(a)) && n <= SIZEOF_STORAGE
  {
    match a
    case Unspec(_, size) => size
    case Inet(_) => SIZEOF_IN
    case Inet6(_, _) => SIZEOF_IN6
  }

  // ---------------------------------------------------------------- INET

  /** `addr<INET>()`: a zeroed storage tagged INET. */
  function InetDefault(): (a: Addr)
    ensures a.Inet? && GetFamily(a) == INET
    ensures LoadIn(a.st).port == 0 && LoadIn(a.st).addr == 0
  {
    Inet(ZeroStorage().(family := INET))
  }

  /** `addr<INET>(const sockaddr_in &)`: the struct copied, family included,
      over a zeroed storage. */
  function InetOf(sin: SockaddrIn): (a: Addr)
    ensures a.Inet? && LoadIn(a.st) == sin
  {
    LoadStoreIn(ZeroStorage(), sin);
    Inet(StoreIn(ZeroStorage(), sin))
  }

  /** `addr<INET>(port, ipv4_addr)`: family INET, the port in network byte
      order, the address from `inet_aton`; text it rejects raises
      logic_error. */
  function InetNew(conv: Converters, port: uint16, text: string): (r: Result<Addr>)
    ensures r.Ok? <==> conv.aton(text).Some?
    ensures r.Err? ==> r.error == LogicError("inet_aton: invalid address")
    ensures r.Ok? ==> (r.value.Inet? &&
      LoadIn(r.value.st) == SockaddrIn(INET, Swap16(port), conv.aton(text).value, seq(8, _ => 0)))
  {
    match conv.aton(text)
    case None => Err(LogicError("inet_aton: invalid address"))
    case Some(ip) => Ok(InetOf(SockaddrIn(INET, Swap16(port), ip, seq(8, _ => 0))))
  }

  /** The port of an IPv4 address built from a port comes back by ntohs,
      and is stored most significant byte first. */
  lemma InetPortRoundTrip(conv: Converters, port: uint16, text: string)
    requires InetNew(conv, port, text).Ok?
    ensures Swap16(LoadIn(InetNew(conv, port, text).value.st).port) == port
    ensures Le16(LoadIn(InetNew(conv, port, text).value.st).port) == [(port / 256) as uint8, (port % 256) as uint8]
  {
    SwapInvolutive(port, 0);
  }

  /** The copy and move constructors: the source's `sockaddr_in` copied
      whole over a zeroed storage. */
  function InetCopy(src: Addr): (a: Addr)
    requires src.Inet?
    ensures a.Inet? && LoadIn(a.st) == LoadIn(src.st)
  {
    InetOf(LoadIn(src.st))
  }

  /** `operator=` (copy and move): the source's `sockaddr_in` copied over
      the target's, the rest of the target's storage kept. */
  function InetAssign(dst: Addr, src: Addr): (a: Addr)
    requires dst.Inet? && src.Inet?
    ensures a.Inet? && LoadIn(a.st) == LoadIn(src.st) && a.st.data[14..] == dst.st.data[14..]
  {
    LoadStoreIn(dst.st, LoadIn(src.st));
    Inet(StoreIn(dst.st, LoadIn(src.st)))
  }

  /** `addr<INET>(const addr_storage &)`: the storage read through the
      `sockaddr_in` view; a tag other than INET raises logic_error. */
  function InetFromStorage(st: Storage): (r: Result<Addr>)
    ensures r.Ok? <==> st.family == INET
    ensures r.Err? ==> r.error == LogicError("addr_storage: invalid conversion")
    ensures r.Ok? ==> r.value.Inet? && LoadIn(r.value.st) == LoadIn(st)
  {
    var a := InetOf(LoadIn(st));
    if GetFamily(a) != INET then Err(LogicError("addr_storage: invalid conversion")) else Ok(a)
  }

  // ---------------------------------------------------------------- INET6 and INET6V4M

  /** `addr<INET6>()` and `addr<INET6V4M>()`: a zeroed storage tagged INET6. */
  function Inet6Default(mapped: bool): (a: Addr)
    ensures a.Inet6? && a.mapped == mapped && GetFamily(a) == INET6
    ensures LoadIn6(a.st).port == 0 && LoadIn6(a.st).flowinfo == 0 && LoadIn6(a.st).scopeId == 0
  {
    Inet6(ZeroStorage().(family := INET6), mapped)
  }

  /** `addr<INET6>(const sockaddr_in6 &)` and its INET6V4M counterpart. */
  function Inet6Of(s6: SockaddrIn6, mapped: bool): (a: Addr)
    ensures a.Inet6? && a.mapped == mapped && LoadIn6(a.st) == s6
  {
    LoadStoreIn6(ZeroStorage(), s6);
    Inet6(StoreIn6(ZeroStorage(), s6), mapped)
  }

  /** `addr<INET6>(port, ipv6_addr, flowinfo, scope_id)`: family INET6, the
      port, flow info and scope id in network byte order, the address from
      `inet_pton`. A 0 from it raises logic_error, a -1 system_error with
      errno. */
  function Inet6New(conv: Converters, port: uint16, text: string, flowinfo: uint32, scopeId: uint32): (r: Result<Addr>)
    ensures r.Ok? <==> conv.pton(text).Converted?
    ensures conv.pton(text).NotAnAddress? ==> r == Err(LogicError("inet_pton: invalid address"))
    ensures conv.pton(text).PtonFailed? ==> r == Err(SystemError(conv.pton(text).errno))
    ensures r.Ok? ==> (r.value.Inet6? && !r.value.mapped &&
      LoadIn6(r.value.st) == SockaddrIn6(INET6, Swap16(port), Swap32(flowinfo), conv.pton(text).addr, Swap32(scopeId)))
  {
    match conv.pton(text)
    case NotAnAddress => Err(LogicError("inet_pton: invalid address"))
    case PtonFailed(errno) => Err(SystemError(errno))
    case Converted(ip) => Ok(Inet6Of(SockaddrIn6(INET6, Swap16(port), Swap32(flowinfo), ip, Swap32(scopeId)), false))
  }

  /** Port, flow info and scope id of an IPv6 address come back by
      ntohs/ntohl. */
  lemma Inet6FieldsRoundTrip(conv: Converters, port: uint16, text: string, flowinfo: uint32, scopeId: uint32)
    requires Inet6New(conv, port, text, flowinfo, scopeId).Ok?
    ensures var s6 := LoadIn6(Inet6New(conv, port, text, flowinfo, scopeId).value.st);
      Swap16(s6.port) == port && Swap32(s6.flowinfo) == flowinfo && Swap32(s6.scopeId) == scopeId
  {
    SwapInvolutive(port, flowinfo);
    SwapInvolutive(port, scopeId);
  }

  /** Copy and move constructors of INET6 and INET6V4M. */
  function Inet6Copy(src: Addr): (a: Addr)
    requires src.Inet6?
    ensures a.Inet6? && a.mapped == src.mapped && LoadIn6(a.st) == LoadIn6(src.st)
  {
    Inet6Of(LoadIn6(src.st), src.mapped)
  }

  /** `operator=` of INET6 and INET6V4M: the source's `sockaddr_in6` copied
      over the target's, the rest of the target's storage kept. */
  function Inet6Assign(dst: Addr, src: Addr): (a: Addr)
    requires dst.Inet6? && src.Inet6? && dst.mapped == src.mapped
    ensures a.Inet6? && a.mapped == dst.mapped
    ensures LoadIn6(a.st) == LoadIn6(src.st) && a.st.data[26..] == dst.st.data[26..]
  {
    LoadStoreIn6(dst.st, LoadIn6(src.st));
    Inet6(StoreIn6(dst.st, LoadIn6(src.st)), dst.mapped)
  }

  /** `addr<INET6>(const addr_storage &)`, which INET6V4M inherits: a tag
      other than INET6 raises logic_error. */
  function Inet6FromStorage(st: Storage, mapped: bool): (r: Result<Addr>)
    ensures r.Ok? <==> st.family == INET6
    ensures r.Err? ==> r.error == LogicError("addr_storage: invalid conversion")
    ensures r.Ok? ==> r.value.Inet6? && r.value.mapped == mapped && LoadIn6(r.value.st) == LoadIn6(st)
  {
    var a := Inet6Of(LoadIn6(st), mapped);
    if GetFamily(a) != INET6 then Err(LogicError("addr_storage: invalid conversion")) else Ok(a)
  }

  // ---------------------------------------------------------------- UNSPEC

  /** The length UNSPEC records for a storage of the given family. */
  function SizeFor(family: SaFamily): (n: nat)
    ensures family == INET ==> n == SIZEOF_IN
    ensures family == INET6 ==> n == SIZEOF_IN6
    ensures family != INET && family != INET6 ==> n == SIZEOF_STORAGE
  {
    if family == INET then SIZEOF_IN else if family == INET6 then SIZEOF_IN6 else SIZEOF_STORAGE
  }

  /** `addr<UNSPEC>()`: a zeroed storage and its full size. */
  function UnspecDefault(): (a: Addr)
    ensures a.Unspec? && GetFamily(a) == UNSPEC && SizeOf(a) == SIZEOF_STORAGE
  {
    Unspec(ZeroStorage(), SIZEOF_STORAGE)
  }

  /** `addr<UNSPEC>(const sockaddr_storage &)`: by the tag, an INET or INET6
      payload is copied through its view over a zeroed storage and the
      length is that view's size; any other tag keeps the whole storage and
      its full size. */
  function UnspecOf(st: Storage): (a: Addr)
    ensures a.Unspec? && GetFamily(a) == st.family && SizeOf(a) == SizeFor(st.family)
    ensures st.family == INET ==> LoadIn(a.st) == LoadIn(st)
    ensures st.family == INET6 ==> LoadIn6(a.st) == LoadIn6(st)
    ensures st.family != INET && st.family != INET6 ==> a.st == st
  {
    if st.family == INET then
      LoadStoreIn(ZeroStorage(), LoadIn(st));
      Unspec(StoreIn(ZeroStorage(), LoadIn(st)), SIZEOF_IN)
    else if st.family == INET6 then
      LoadStoreIn6(ZeroStorage(), LoadIn6(st));
      Unspec(StoreIn6(ZeroStorage(), LoadIn6(st)), SIZEOF_IN6)
    else
      Unspec(st, SIZEOF_STORAGE)
  }

  /** The copy and move constructors of UNSPEC and its constructors from
      INET, INET6 and INET6V4M addresses: the source's storage read whole
      and wrapped as above. */
  function UnspecFrom(src: Addr): (a: Addr)
    ensures a.Unspec? && GetFamily(a) == GetFamily(src) && SizeOf(a) == SizeFor(GetFamily(src))
    ensures GetFamily(src) == INET ==> LoadIn(a.st) == LoadIn(src.st)
    ensures GetFamily(src) == INET6 ==> LoadIn6(a.st) == LoadIn6(src.st)
    ensures GetFamily(src) != INET && GetFamily(src) != INET6 ==> a.st == src.st
  {
    UnspecOf(src.st)
  }

  /** Wrapping an address of the family its view names as UNSPEC and
      converting it back gives the same address. */
  lemma WrapThenConvert(a: Addr)
    requires (a.Inet? && GetFamily(a) == INET) || (a.Inet6? && GetFamily(a) == INET6)
    ensures a.Inet? ==> InetFromStorage(UnspecFrom(a).st) == Ok(InetCopy(a))
    ensures a.Inet6? ==> Inet6FromStorage(UnspecFrom(a).st, a.mapped) == Ok(Inet6Copy(a))
  {
  }

  /** The UNSPEC length always agrees with the family of its storage. */
  ghost predicate SizeAgrees(a: Addr)
  {
    a.Unspec? ==> a.size == SizeFor(a.st.family)
  }

  /** An address whose storage carries the family its type stands for, and
      whose UNSPEC length agrees with that family. */
  ghost predicate Tagged(a: Addr)
  {
    match a
    case Inet(st) => st.family == INET
    case Inet6(st, _) => st.family == INET6
    case Unspec(_, _) => SizeAgrees(a)
  }

  /** Every INET, INET6 and INET6V4M address the constructors build, the
      type-checked conversions from a storage return, or the copy
      constructors make of such an address carries its type's family, so it
      hands socket calls the size of that family's struct. */
  lemma TypedConstructorsTagged(conv: Converters, st: Storage, src: Addr, port: uint16, text: string,
                                flowinfo: uint32, scopeId: uint32, mapped: bool)
    ensures Tagged(InetDefault()) && Tagged(Inet6Default(mapped))
    ensures InetNew(conv, port, text).Ok? ==> Tagged(InetNew(conv, port, text).value)
    ensures Inet6New(conv, port, text, flowinfo, scopeId).Ok? ==>
      Tagged(Inet6New(conv, port, text, flowinfo, scopeId).value)
    ensures InetFromStorage(st).Ok? ==> Tagged(InetFromStorage(st).value)
    ensures Inet6FromStorage(st, mapped).Ok? ==> Tagged(Inet6FromStorage(st, mapped).value)
    ensures src.Inet? && Tagged(src) ==> Tagged(InetCopy(src))
    ensures src.Inet6? && Tagged(src) ==> Tagged(Inet6Copy(src))
  {
  }

  /** Every UNSPEC address the constructors build, and the corrected
      assignment of one whose length agrees, records the size of the struct
      its family names. */
  lemma UnspecConstructorsTagged(st: Storage, src: Addr, dst: Addr)
    ensures Tagged(UnspecDefault()) && Tagged(UnspecOf(st)) && Tagged(UnspecFrom(src))
    ensures dst.Unspec? && src.Unspec? && Tagged(src) ==> Tagged(UnspecAssign(dst, src))
  {
  }

  /** `operator=` of UNSPEC as written: the whole storage is copied but the
      target keeps its own `_sizeof`. */
  function UnspecAssignAsWritten(dst: Addr, src: Addr): (a: Addr)
    requires dst.Unspec? && src.Unspec?
    ensures a.Unspec? && a.st == src.st && SizeOf(a) == SizeOf(dst)
  {
    Unspec(src.st, dst.size)
  }

  /** An UNSPEC holding IPv4 assigned one holding IPv6 ends with the IPv6
      storage and the IPv4 length: its recorded length no longer agrees
      with its family. */
  lemma UnspecAssignKeepsStaleSize()
    ensures var v4 := UnspecOf(InetDefault().st);
      var v6 := UnspecOf(Inet6Default(false).st);
      SizeAgrees(v4) && SizeAgrees(v6) &&
      !SizeAgrees(UnspecAssignAsWritten(v4, v6)) && SizeOf(UnspecAssignAsWritten(v4, v6)) == SIZEOF_IN
  {
    var v4 := UnspecOf(InetDefault().st);
    var v6 := UnspecOf(Inet6Default(false).st);
    assert GetFamily(UnspecAssignAsWritten(v4, v6)) == INET6;
  }

  /** `operator=` of UNSPEC with the length copied along with the storage. */
  function UnspecAssign(dst: Addr, src: Addr): (a: Addr)
    requires dst.Unspec? && src.Unspec?
    ensures a.Unspec? && a.st == src.st && SizeOf(a) == SizeOf(src)
    ensures SizeAgrees(src) ==> SizeAgrees(a)
  {
    Unspec(src.st, src.size)
  }

  // ---------------------------------------------------------------- to_string

  function Digit(d: nat): char
    requires d < 10
  {
    ('0' as int + d) as char
  }

  /** `std::to_string` of a non-negative integer: its decimal digits, most
      significant first, without leading zeros. */
  function Decimal(n: nat): (s: string)
    ensures 0 < |s| && forall k :: 0 <= k < |s| ==> '0' <= s[k] <= '9'
    ensures |s| > 1 ==> s[0] != '0'
    decreases n
  {
    if n < 10 then [Digit(n)] else Decimal(n / 10) + [Digit(n % 10)]
  }

  /** The value a string of decimal digits denotes. */
  function ParseDecimal(s: string): nat
    decreases |s|
  {
    if s == [] then 0
    else
      var c := s[|s| - 1];
      ParseDecimal(s[..|s| - 1]) * 10 + (if '0' <= c <= '9' then (c as int - '0' as int) else 0)
  }

  /** The decimal text of n denotes n, so distinct values render distinctly. */
  lemma {:induction false} DecimalRoundTrip(n: nat)
    ensures ParseDecimal(Decimal(n)) == n
    decreases n
  {
    if n >= 10 {
      var s := Decimal(n);
      assert s[..|s| - 1] == Decimal(n / 10);
      DecimalRoundTrip(n / 10);
    }
  }

  /** `to_string` of INET: family name, port by ntohs, address by
      `inet_ntoa`; a family without a name raises out_of_range. */
  function InetText(conv: Converters, sin: SockaddrIn): (r: Result<string>)
    ensures r.Ok? <==> SaFamilyStr(sin.family).Ok?
    ensures r.Err? ==> r.error == OutOfRange
  {
    match SaFamilyStr(sin.family)
    case Err(e) => Err(e)
    case Ok(name) =>
      Ok("{ \"family\": \"" + name + "\", " +
        "\"port\": " + Decimal(Swap16(sin.port) as nat) + ", " +
        "\"ip\": \"" + conv.ntoa(sin.addr) + "\" }")
  }

  /** `inet_ntop(AF_INET6, addr, buf, room)`: the text when it and its NUL
      fit in room bytes, a null pointer otherwise. */
  function Ntop(conv: Converters, addr: In6Addr, room: nat): (r: Option<string>)
    ensures r.Some? <==> |conv.ntop(addr)| < room
    ensures r.Some? ==> r.value == conv.ntop(addr)
  {
    if |conv.ntop(addr)| < room then Some(conv.ntop(addr)) else None
  }

  /** `to_string` of INET6 with `inet_ntop` given room bytes: family name,
      port, flow info, address text and scope id. A family without a name
      raises out_of_range; a null from `inet_ntop` makes the string
      construction fail. */
  function Inet6Text(conv: Converters, s6: SockaddrIn6, room: nat): (r: Result<string>)
    ensures SaFamilyStr(s6.family).Err? ==> r == Err(OutOfRange)
    ensures SaFamilyStr(s6.family).Ok? && |conv.ntop(s6.addr)| >= room ==> r == Err(NullString)
    ensures r.Ok? <==> SaFamilyStr(s6.family).Ok? && |conv.ntop(s6.addr)| < room
  {
    match SaFamilyStr(s6.family)
    case Err(e) => Err(e)
    case Ok(name) =>
      match Ntop(conv, s6.addr, room)
      case None => Err(NullString)
      case Some(text) =>
        Ok("{ \"family\": \"" + name + "\", " +
          "\"port\": " + Decimal(Swap16(s6.port) as nat) + ", " +
          "\"flowinfo\": " + Decimal(Swap32(s6.flowinfo) as nat) + ", " +
          "\"ipv6\": \"" + text + "\", " +
          "\"scope_id\": " + Decimal(Swap32(s6.scopeId) as nat) + " }")
  }

  /** `to_string` of INET6 as written: `inet_ntop` is told the buffer holds
      sizeof(sockaddr_in6) = 28 bytes, not INET6_ADDRSTRLEN. */
  function Inet6ToStringAsWritten(conv: Converters, a: Addr): (r: Result<string>)
    requires a.Inet6?
    ensures r.Ok? <==> SaFamilyStr(GetFamily(a)).Ok? && |conv.ntop(LoadIn6(a.st).addr)| < SIZEOF_IN6
    ensures r.Ok? ==> r == ToString(conv, a)
  {
    Inet6Text(conv, LoadIn6(a.st), SIZEOF_IN6)
  }

  /** As written, an IPv6 address whose text has 28 characters or more,
      such as ffff:ffff:ffff:ffff:ffff:ffff:ffff:ffff, cannot be rendered,
      though the buffer would hold it. */
  lemma LongIpv6TextLost(conv: Converters, a: Addr)
    requires a.Inet6? && GetFamily(a) == INET6 && NtopFits(conv)
    requires SIZEOF_IN6 <= |conv.ntop(LoadIn6(a.st).addr)|
    ensures Inet6ToStringAsWritten(conv, a) == Err(NullString)
    ensures ToString(conv, a).Ok?
  {
  }

  /** `to_string`, with the INET6 buffer size INET6_ADDRSTRLEN. UNSPEC
      dispatches on its tag: INET and INET6 storage render through their
      own address type, anything else as the AF_UNSPEC family alone.
      INET6V4M renders as INET6. */
  function ToString(conv: Converters, a: Addr): (r: Result<string>)
    ensures a.Inet? ==> r == InetText(conv, LoadIn(a.st))
    ensures a.Inet6? ==> r == Inet6Text(conv, LoadIn6(a.st), INET6_ADDRSTRLEN)
    ensures a.Unspec? && GetFamily(a) != INET && GetFamily(a) != INET6 ==>
      r == Ok("{ \"family\" :\"" + "AF_UNSPEC" + "\" }")
    decreases if a.Unspec? then 1 else 0
  {
    match a
    case Inet(st) => InetText(conv, LoadIn(st))
    case Inet6(st, _) => Inet6Text(conv, LoadIn6(st), INET6_ADDRSTRLEN)
    case Unspec(st, _) =>
      if st.family == INET then
        match InetFromStorage(st)
        case Ok(v4) => ToString(conv, v4)
        case Err(e) => Err(e)
      else if st.family == INET6 then
        match Inet6FromStorage(st, false)
        case Ok(v6) => ToString(conv, v6)
        case Err(e) => Err(e)
      else
        Ok("{ \"family\" :\"" + SaFamilyStr(UNSPEC).value + "\" }")
  }

  /** An address wrapped as UNSPEC renders as the address itself. */
  lemma WrappedRendersAlike(conv: Converters, a: Addr)
    requires (a.Inet? && GetFamily(a) == INET) || (a.Inet6? && GetFamily(a) == INET6)
    ensures ToString(conv, UnspecFrom(a)) == ToString(conv, a)
  {
  }

  /** INET6V4M renders exactly as the INET6 address over the same storage. */
  lemma MappedRendersAsInet6(conv: Converters, st: Storage)
    ensures ToString(conv, Inet6(st, true)) == ToString(conv, Inet6(st, false))
  {
  }

  /** An IPv4 address built from a port renders that port in decimal. */
  lemma InetRendersPort(conv: Converters, port: uint16, text: string)
    requires InetNew(conv, port, text).Ok?
    ensures ToString(conv, InetNew(conv, port, text).value) ==
      Ok("{ \"family\": \"" + "AF_INET" + "\", " +
        "\"port\": " + Decimal(port as nat) + ", " +
        "\"ip\": \"" + conv.ntoa(conv.aton(text).value) + "\" }")
  {
    InetPortRoundTrip(conv, port, text);
  }

  /** An IPv6 address built from its fields renders them as given, once the
      C library keeps its text within INET6_ADDRSTRLEN. */
  lemma Inet6RendersFields(conv: Converters, port: uint16, text: string, flowinfo: uint32, scopeId: uint32)
    requires Inet6New(conv, port, text, flowinfo, scopeId).Ok? && NtopFits(conv)
    ensures ToString(conv, Inet6New(conv, port, text, flowinfo, scopeId).value) ==
      Ok("{ \"family\": \"" + "AF_INET6" + "\", " +
        "\"port\": " + Decimal(port as nat) + ", " +
        "\"flowinfo\": " + Decimal(flowinfo as nat) + ", " +
        "\"ipv6\": \"" + conv.ntop(conv.pton(text).addr) + "\", " +
        "\"scope_id\": " + Decimal(scopeId as nat) + " }")
  {
    Inet6FieldsRoundTrip(conv, port, text, flowinfo, scopeId);
  }
}

=== FILE: buffer.dfy ===
/** The fixed-capacity circular byte buffer `buffer<SIZE>` of srcs/buffer/:
    a byte array, a `get` offset, a `put` offset, an `is_full` flag and an
    `eof` flag. Bytes are appended at `put` and removed at `get`; both offsets
    wrap modulo the capacity. The two directional subclasses are in
    ibuffer.dfy and obuffer.dfy. */
module Ring {
  import opened Typedef

  function Min(a: nat, b: nat): (m: nat)
    ensures m <= a && m <= b && (m == a || m == b)
  {
    if a < b then a else b
  }

  /** What one call of a transfer function reports: its signed result (bytes
      moved, 0 for end of file, negative for failure) and, for a receive, the
      bytes it stored at the position it was given. */
  datatype Reply = Reply(ret: int, data: seq<int8>)

  /** A transfer function (`sync_fct_t`), given the contiguous run of the
      array it may use, as its current contents: its length is the length
      argument, its start the pointer argument. */
  type Transfer = seq<int8> -> Reply

  /** The transfer functions the buffer is meant to be used with (wrappers of
      read/recv/send) never report more bytes than the run they were given. */
  ghost predicate Bounded(fct: Transfer) {
    forall run :: fct(run).ret <= |run|
  }

  /** A receive hands over at least as many bytes as it reports. */
  ghost predicate Delivers(fct: Transfer) {
    forall run :: fct(run).ret > 0 ==> fct(run).ret <= |fct(run).data|
  }

  /** The bytes held by a ring laid out in `s`, oldest first: nothing when the
      offsets meet and the full flag is clear, the run [get, put) when get is
      before put, and otherwise the tail [get, |s|) followed by the head [0, put). */
  ghost function Occupied(s: seq<int8>, get: nat, put: nat, full: bool): seq<int8>
    requires get <= |s| && put <= |s|
  {
    if !full && get == put then []
    else if get < put then s[get..put]
    else s[get..] + s[..put]
  }

  /** A send function that takes every byte it is offered. */
  function SendAll(run: seq<int8>): (reply: Reply)
    ensures reply.ret == |run|
  {
    Reply(|run|, run)
  }

  /** `std::memcpy(dst + at, data, |data|)`. */
  method MemCopy(dst: array<int8>, at: nat, data: seq<int8>)
    requires at + |data| <= dst.Length
    modifies dst
    ensures forall k :: 0 <= k < dst.Length ==>
      dst[k] == if at <= k < at + |data| then data[k - at] else old(dst[k])
  {
    var i := 0;
    while i < |data|
      invariant 0 <= i <= |data|
      invariant forall k :: 0 <= k < dst.Length ==>
        dst[k] == if at <= k < at + i then data[k - at] else old(dst[k])
    {
      dst[at + i] := data[i];
      i := i + 1;
    }
  }

  /** A position at most one past the end, reduced modulo the capacity. */
  lemma ModWrap(x: nat, m: nat)
    requires 0 < m && x <= m
    ensures x % m == (if x == m then 0 else x)
  {
  }

  /** Taking gb = min(n, |s| - get) bytes from the tail [get, |s|) and then
      gf = min(n - gb, put) bytes from the head [0, put) takes the oldest
      min(n, |c|) bytes of the occupied bytes c, and the offset this leaves
      (reset to the start when it meets put) describes the rest. */
  lemma TailThenHead(s: seq<int8>, c: seq<int8>, get: nat, put: nat, n: nat, gb: nat, gf: nat)
    requires get < |s| && put <= get && 0 < n && c == s[get..] + s[..put]
    requires gb == Min(n, |s| - get) && gf == Min(n - gb, put)
    ensures 0 < gb && (gf > 0 ==> gb == |s| - get) && gb + gf == Min(n, |c|)
    ensures forall k :: 0 <= k < gb ==> c[k] == s[get + k]
    ensures forall k :: gb <= k < gb + gf ==> c[k] == s[k - gb]
    ensures var g := if gf > 0 then gf else if get + gb == |s| then 0 else get + gb;
      if g == put then c[gb + gf..] == [] else Occupied(s, g, put, false) == c[gb + gf..]
  {
    if gf == 0 && get + gb < |s| {
      assert c[gb..] == s[get + gb..] + s[..put];
    }
  }

  /** Writing data into the free gap [put, get) of a ring whose bytes wrap
      (tail [get, |s|), head [0, put)) appends data to its contents; the
      buffer is full when the new put meets get. */
  lemma AppendInGap(s0: seq<int8>, s1: seq<int8>, get: nat, put: nat, data: seq<int8>)
    requires |s0| == |s1| && put < get <= |s0| && put + |data| <= get
    requires forall k :: 0 <= k < |s1| ==>
      s1[k] == if put <= k < put + |data| then data[k - put] else s0[k]
    ensures Occupied(s1, get, put + |data|, put + |data| == get) == Occupied(s0, get, put, false) + data
  {
    assert s1[get..] == s0[get..];
    assert s1[..put + |data|] == s0[..put] + data;
  }

  /** Writing pb bytes of data at [put, put + pb) and, when that reaches the
      end of the array, its remaining pf bytes at [0, pf) appends data to the
      contents [get, put) of a ring that does not wrap; the new put is the
      end of the last write, and the buffer is full when it meets get. */
  lemma AppendTailHead(s0: seq<int8>, s1: seq<int8>, get: nat, put: nat, data: seq<int8>, pb: nat, pf: nat)
    requires |s0| == |s1| && get <= put < |s0| && 0 < pb && pb + pf == |data|
    requires put + pb <= |s0| && (pf > 0 ==> put + pb == |s0| && pf <= get)
    requires forall k :: 0 <= k < |s1| ==>
      s1[k] == if put <= k < put + pb then data[k - put] else if k < pf then data[pb + k] else s0[k]
    ensures var p := if pf > 0 then pf else if put + pb == |s0| then 0 else put + pb;
      Occupied(s1, get, p, p == get) == Occupied(s0, get, put, false) + data
  {
    var p := if pf > 0 then pf else if put + pb == |s0| then 0 else put + pb;
    if p == 0 || p <= get {
      AppendWrapping(s0, s1, get, put, data, pb, p);
    } else {
      assert s1[get..p] == s0[get..put] + data;
    }
  }

  /** The case of AppendTailHead where the writes reach the end of the array,
      so the new put p is at or before get. */
  lemma AppendWrapping(s0: seq<int8>, s1: seq<int8>, get: nat, put: nat, data: seq<int8>, pb: nat, p: nat)
    requires |s0| == |s1| && get <= put <= |s0| && put + pb == |s0| && p + pb == |data| && p <= get
    requires forall k :: 0 <= k < |s1| ==>
      s1[k] == if put <= k then data[k - put] else if k < p then data[pb + k] else s0[k]
    ensures Occupied(s1, get, p, p == get) == Occupied(s0, get, put, false) + data
  {
    assert s1[get..put] == s0[get..put];
    assert s1[put..] == data[..pb];
    assert s1[..p] == data[pb..];
    assert s1[get..] == s1[get..put] + s1[put..];
    if get == put {
      assert Occupied(s0, get, put, false) == [];
    }
  }

  /** Removing r bytes (at most the contiguous run at get) from the front of
      the contents: get advances by r, wrapping to 0 at the end of the array,
      and what is left is the rest of the contents (nothing when get meets put). */
  lemma DropRun(s: seq<int8>, get: nat, put: nat, full: bool, r: nat)
    requires get < |s| && put < |s| && (full ==> get == put) && (full || get != put)
    requires 0 < r <= (if get < put then put - get else |s| - get)
    ensures var g := if get + r == |s| then 0 else get + r;
      if g == put then Occupied(s, get, put, full)[r..] == []
      else Occupied(s, g, put, false) == Occupied(s, get, put, full)[r..]
  {
    if get >= put && get + r < |s| {
      assert (s[get..] + s[..put])[r..] == s[get + r..] + s[..put];
    }
  }

  /** A value in [m, 2m) is reduced modulo m by one subtraction. */
  lemma ModOnce(x: int, m: int)
    requires 0 < m <= x < m + m
    ensures x % m == x - m
  {
    assert x == m * 1 + (x - m);
  }

  /** A negative distance within one lap, reduced modulo the capacity. */
  lemma ModBack(x: int, m: nat)
    requires 0 < m && x < 0 < x + m
    ensures x % m == x + m
  {
  }

  class Buffer {
    const size: nat          // SIZE
    const buf: array<int8>   // _buf
    var get: nat             // _off.get
    var put: nat             // _off.put
    var full: bool           // _stats.is_full
    var eof: bool            // _stats.eof

    /** Shape of the object: the array has SIZE bytes and both offsets index it. */
    ghost predicate Valid()
      reads this
    {
      0 < size == buf.Length && get < size && put < size
    }

    /** The ring invariant: a set full flag means the offsets meet. */
    ghost predicate Coherent()
      reads this
    {
      full ==> get == put
    }

    /** An empty buffer has both offsets at the start of the array. */
    ghost predicate Rewound()
      reads this
    {
      IsEmpty() ==> get == 0 && put == 0
    }

    /** The bytes in the buffer, oldest first. */
    ghost function Contents(): (c: seq<int8>)
      reads this, buf
      requires Valid()
      ensures |c| == InAvail()
    {
      Occupied(buf[..], get, put, full)
    }

    constructor (size: nat)
      requires 0 < size
      ensures Valid() && Coherent() && Rewound()
      ensures this.size == size && fresh(buf)
      ensures get == 0 && put == 0 && !full && !eof
      ensures buf[..] == seq(size, _ => 0) && Contents() == []
    {
      this.size := size;
      buf := new int8[size](_ => 0);
      get, put := 0, 0;
      full, eof := false, false;
    }

    function Size(): (r: nat)
      reads this
      requires Valid()
      ensures r == buf.Length && 0 < r
    {
      size
    }

    /** `is_full`: under the ring invariant the buffer reports itself full
        exactly when it holds SIZE bytes. */
    predicate IsFull(): (r: bool)
      reads this
      ensures Valid() && Coherent() ==> (r <==> InAvail() == size)
    {
      full
    }

    /** `is_empty`: the buffer holds no bytes. */
    predicate IsEmpty(): (r: bool)
      reads this
      ensures Valid() ==> (r <==> InAvail() == 0)
    {
      !full && get == put
    }

    /** `eof`: the flag a `sync` sets when its transfer function returns 0. */
    predicate Eof()
      reads this
    {
      eof
    }

    /** `in_avail`: the number of bytes held, zero exactly when the offsets
        meet with the full flag clear. */
    function InAvail(): (r: nat)
      reads this
      requires Valid()
      ensures r <= size
      ensures r == 0 <==> !full && get == put
    {
      if !full && get == put then 0
      else if get < put then put - get
      else (size - get) + put
    }

    /** When the full flag is clear, in_avail() is the distance from get to
        put modulo SIZE. */
    lemma AvailIsDistance()
      requires Valid() && !IsFull()
      ensures InAvail() == (put - get) % size
    {
      if get > put {
        ModBack(put - get, size);
      } else {
        ModWrap(put - get, size);
      }
    }

    /** The contiguous free run at put handed to a receive (`ibuffer::sync`):
        up to get when put is before it, otherwise up to the end of the array. */
    function FreeRun(): (r: nat)
      reads this
      requires Valid()
      ensures put + r <= size
      ensures !full ==> 0 < r <= size - InAvail()
    {
      if put < get then get - put else size - put
    }

    /** The contiguous run of held bytes at get handed to a send
        (`obuffer::sync`): up to put when get is before it, otherwise up to
        the end of the array. It is the front of the contents. */
    function DataRun(): (r: nat)
      reads this
      requires Valid()
      ensures get + r <= size
      ensures !IsEmpty() ==> 0 < r <= InAvail()
    {
      if get < put then put - get else size - get
    }

    /** The run a send is given holds the oldest bytes of the buffer, in order. */
    lemma DataRunIsOldest()
      requires Valid() && !IsEmpty()
      ensures buf[get..get + DataRun()] == Contents()[..DataRun()]
    {
    }

    method Clear()
      requires Valid()
      modifies this
      ensures Valid() && Coherent() && Rewound()
      ensures get == 0 && put == 0 && !full && !eof
      ensures Contents() == []
    {
      get, put := 0, 0;
      full, eof := false, false;
    }

    /** The base class's `sync`: one call of the transfer function on an empty
        run. What this contract adds to the body is its frame: the method has
        no `modifies` clause, so the buffer keeps every field and byte. */
    method Sync(fct: Transfer) returns (rc: int)
      ensures rc == fct([]).ret
    {
      var reply := fct([]);
      rc := reply.ret;
    }

    /** `getn`: copies the oldest min(n, in_avail()) bytes to dst and removes
        them, tail [get, SIZE) first and then head [0, put). */
    method GetN(dst: array<int8>, n: nat) returns (count: nat)
      requires Valid() && dst != buf && n <= dst.Length
      modifies this, dst
      ensures Valid() && (old(Coherent()) ==> Coherent())
      ensures count == Min(n, old(InAvail()))
      ensures forall k :: 0 <= k < dst.Length ==>
        dst[k] == if k < count then old(Contents())[k] else old(dst[k])
      ensures Contents() == old(Contents())[count..]
      ensures count == 0 ==> unchanged(this)
      ensures count > 0 ==> !full && eof == old(eof) && Coherent() && Rewound()
      ensures count > 0 && Contents() != [] ==> put == old(put) && get == (old(get) + count) % size
      ensures buf[..] == old(buf[..])
    {
      ghost var c := Contents();
      if n == 0 || IsEmpty() {
        return 0;
      }
      full := false;
      if get < put {
        var getSize := Min(n, put - get);
        MemCopy(dst, 0, buf[get..get + getSize]);
        ModWrap(get + getSize, size);
        get := get + getSize;
        if get == put {
          get, put := 0, 0;
        }
        return getSize;
      }
      assert c == buf[get..] + buf[..put];
      count := GetTailHead(dst, n, c);
    }

    /** One copy step of `getn`: `memcpy(b + at, _buf + from, len)`
        followed by advancing get by len modulo SIZE. */
    method Take(dst: array<int8>, at: nat, from: nat, len: nat)
      requires Valid() && dst != buf && at + len <= dst.Length && from + len <= size
      requires get + len <= size
      modifies this`get, dst
      ensures Valid()
      ensures get == if old(get) + len == size then 0 else old(get) + len
      ensures forall k :: 0 <= k < dst.Length ==>
        dst[k] == if at <= k < at + len then buf[from + k - at] else old(dst[k])
    {
      MemCopy(dst, at, buf[from..from + len]);
      ModWrap(get + len, size);
      get := (get + len) % size;
    }

    /** The wrapping half of `getn`: the occupied bytes run from get to the end
        of the array and on from its start to put (or the buffer was full).
        At most n of them are copied, tail first, then head. */
    method GetTailHead(dst: array<int8>, n: nat, ghost c: seq<int8>) returns (count: nat)
      requires Valid() && dst != buf && 0 < n <= dst.Length && !full && put <= get
      requires c == buf[get..] + buf[..put]
      modifies this`get, this`put, dst
      ensures Valid() && Rewound()
      ensures count == Min(n, |c|)
      ensures forall k :: 0 <= k < dst.Length ==>
        dst[k] == if k < count then c[k] else old(dst[k])
      ensures Contents() == c[count..]
      ensures Contents() != [] ==> put == old(put) && get == (old(get) + count) % size
    {
      ghost var s := buf[..];
      ghost var get0 := get;
      var gbSize := Min(n, size - get);
      var gfSize := Min(n - gbSize, put);
      TailThenHead(s, c, get, put, n, gbSize, gfSize);
      if gbSize > 0 {
        Take(dst, 0, get, gbSize);
      }
      if gfSize > 0 {
        Take(dst, gbSize, 0, gfSize);
      }
      assert buf[..] == s;
      assert get == if gfSize > 0 then gfSize else if get0 + gbSize == size then 0 else get0 + gbSize;
      if gfSize > 0 {
        ModOnce(get0 + gbSize + gfSize, size);
      } else {
        ModWrap(get0 + gbSize, size);
      }
      if get == put {
        get, put := 0, 0;
      }
      count := gbSize + gfSize;
    }

    /** `putn`: appends the first min(n, SIZE - in_avail()) bytes of src,
        at put and on from the start of the array when it wraps; the buffer
        becomes full when put meets get. */
    method PutN(src: seq<int8>, n: nat) returns (count: nat)
      requires Valid() && n <= |src|
      modifies this`put, this`full, buf
      ensures Valid() && (old(Coherent()) ==> Coherent())
      ensures count == if old(full) then 0 else Min(n, size - old(InAvail()))
      ensures Contents() == old(Contents()) + src[..count]
      ensures get == old(get)
      ensures count == 0 ==> put == old(put) && full == old(full) && buf[..] == old(buf[..])
      ensures count > 0 ==> Coherent() && Rewound()
    {
      if n == 0 || IsFull() {
        return 0;
      }
      if put < get {
        ghost var s0 := buf[..];
        var putSize := Min(n, get - put);
        MemCopy(buf, put, src[..putSize]);
        AppendInGap(s0, buf[..], get, put, src[..putSize]);
        put := put + putSize;
        if get == put {
          full := true;
        }
        return putSize;
      }
      count := PutTailHead(src, n);
    }

    /** One copy step of `putn`: `memcpy(_buf + at, b + from, len)` followed
        by advancing put by len modulo SIZE. */
    method Give(src: seq<int8>, at: nat, from: nat, len: nat)
      requires Valid() && at + len <= size && from + len <= |src| && put + len <= size
      modifies this`put, buf
      ensures Valid()
      ensures put == if old(put) + len == size then 0 else old(put) + len
      ensures forall k :: 0 <= k < size ==>
        buf[k] == if at <= k < at + len then src[from + k - at] else old(buf[k])
    {
      MemCopy(buf, at, src[from..from + len]);
      ModWrap(put + len, size);
      put := (put + len) % size;
    }

    /** The wrapping half of `putn`: the free space runs from put to the end
        of the array and on from its start to get. At most n bytes are
        written, tail first, then head. */
    method PutTailHead(src: seq<int8>, n: nat) returns (count: nat)
      requires Valid() && 0 < n <= |src| && !full && get <= put
      modifies this`put, this`full, buf
      ensures Valid() && Coherent() && Rewound() && get == old(get)
      ensures count == Min(n, size - old(InAvail()))
      ensures Contents() == old(Contents()) + src[..count]
    {
      ghost var s0 := buf[..];
      ghost var p0 := put;
      var pbSize := Min(n, size - put);
      var pfSize := Min(n - pbSize, get);
      if pbSize > 0 {
        Give(src, put, 0, pbSize);
      }
      if pfSize > 0 {
        Give(src, 0, pbSize, pfSize);
      }
      AppendTailHead(s0, buf[..], get, p0, src[..pbSize + pfSize], pbSize, pfSize);
      if get == put {
        full := true;
      }
      count := pbSize + pfSize;
    }
  }

  /** An eight-byte buffer given six bytes, drained of two and given four
      more: the last four go in across the end of the array. */
  method FillAcrossEnd(first: seq<int8>, second: seq<int8>) returns (b: Buffer, accepted: nat)
    requires |first| == 6 && |second| == 4
    ensures fresh(b) && fresh(b.buf)
    ensures b.Valid() && b.Coherent() && b.size == 8
    ensures accepted == 4 && b.Contents() == first[2..] + second
  {
    b := new Buffer(8);
    var n := b.PutN(first, 6);
    var two := new int8[2];
    n := b.GetN(two, 2);
    assert first[..6] == first && b.Contents() == first[2..];
    accepted := b.PutN(second, 4);
    assert second[..4] == second;
  }

  /** The buffer filled across the end of its array is full and refuses
      more, and `getn(8)` hands out the eight bytes it holds oldest first. */
  method WrapAroundScenario() returns (accepted: nat, refused: nat, out: seq<int8>)
    ensures accepted == 4 && refused == 0 && out == [3, 4, 5, 6, 7, 8, 9, 10]
  {
    var first: seq<int8> := [1, 2, 3, 4, 5, 6];
    var second: seq<int8> := [7, 8, 9, 10];
    var b;
    b, accepted := FillAcrossEnd(first, second);
    assert b.IsFull();
    refused := b.PutN([11], 1);
    var dst := new int8[8];
    var n := b.GetN(dst, 8);
    out := dst[..];
    assert out == first[2..] + second;
  }
}

=== FILE: ibuffer.dfy ===
/** `ibuffer<SIZE>` of srcs/buffer/nw_ibuffer.hpp: a ring buffer filled by a
    receive function. The C++ class derives from `buffer<SIZE>`; here it holds
    the ring it extends, and getn/putn are those of the ring. */
module InputRing {
  import opened Typedef
  import opened Ring

  class IBuffer {
    const ring: Buffer

    constructor (size: nat)
      requires 0 < size
      ensures fresh(ring) && fresh(ring.buf)
      ensures ring.Valid() && ring.Coherent() && ring.Rewound()
      ensures ring.size == size && ring.Contents() == [] && !ring.eof
    {
      ring := new Buffer(size);
    }

    /** `sync`: unless the buffer is full, one call of the receive function
        on the free run at put. A zero result records end of file, a negative
        one reports -1, and r > 0 received bytes are appended to the contents,
        put advancing by r modulo SIZE; the buffer is full when put meets get. */
    method Sync(fct: Transfer) returns (rc: int)
      requires ring.Valid() && Bounded(fct) && Delivers(fct)
      modifies ring`put, ring`full, ring`eof, ring.buf
      ensures ring.Valid() && (old(ring.Coherent()) ==> ring.Coherent())
      ensures old(ring.Rewound()) ==> ring.Rewound()
      ensures rc == (if !old(ring.full) && fct(old(ring.buf[ring.put..ring.put + ring.FreeRun()])).ret < 0 then -1 else 0)
      ensures var reply := fct(old(ring.buf[ring.put..ring.put + ring.FreeRun()]));
        if old(ring.full) || reply.ret < 0 then
          unchanged(ring) && ring.buf[..] == old(ring.buf[..])
        else if reply.ret == 0 then
          ring.eof && ring.put == old(ring.put) && ring.full == old(ring.full) && ring.buf[..] == old(ring.buf[..]) &&
          ring.Contents() == old(ring.Contents())
        else
          ring.Contents() == old(ring.Contents()) + reply.data[..reply.ret] &&
          ring.InAvail() == old(ring.InAvail()) + reply.ret && ring.eof == old(ring.eof)
    {
      if ring.IsFull() {
        return 0;
      }
      var run := ring.FreeRun();
      var reply := fct(ring.buf[ring.put..ring.put + run]);
      if reply.ret == 0 {
        ring.eof := true;
        return 0;
      }
      if !(reply.ret > 0) {
        return -1;
      }
      Receive(reply.data[..reply.ret]);
      rc := 0;
    }

    /** The bytes a receive stored at put: they fill the start of the free
        run, put moves past them modulo SIZE, and the full flag is raised when
        put meets get. */
    method Receive(data: seq<int8>)
      requires ring.Valid() && !ring.full && 0 < |data| <= ring.FreeRun()
      modifies ring`put, ring`full, ring.buf
      ensures ring.Valid() && ring.Coherent() && ring.Rewound()
      ensures ring.Contents() == old(ring.Contents()) + data
    {
      ghost var s0 := ring.buf[..];
      ghost var p0 := ring.put;
      MemCopy(ring.buf, ring.put, data);
      if ring.put < ring.get {
        AppendInGap(s0, ring.buf[..], ring.get, p0, data);
      } else {
        AppendTailHead(s0, ring.buf[..], ring.get, p0, data, |data|, 0);
      }
      ModWrap(ring.put + |data|, ring.size);
      ring.put := (ring.put + |data|) % ring.size;
      if ring.get == ring.put {
        ring.full := true;
      }
    }
  }
}

=== FILE: legacy_buffer.dfy ===
/** The older combined `buffer<SIZE>` of srcs/nw_buffer.hpp: one class for
    both directions, holding its direction and its transfer function, whose
    `sync` works on the offset selected by the direction (`_sync_off`, a
    reference to `put` for input and to `get` for output). Its `getn`/`putn`
    wrap paths add to the offsets without reducing them modulo SIZE, so an
    offset can come to equal SIZE: the offsets here range over [0, SIZE]. */
module LegacyRing {
  import opened Typedef
  import opened Ring

  /** `dir`: out = 0, in = 1. */
  datatype Dir = Out | In

  /** The wrap path of the older `getn` on contents c = s[get..] + s[..put]:
      gb bytes from the tail and gf from the head, then get is get + gb, or gf
      when the head was used; it may reach |s|. What is left is the rest of c. */
  lemma LegacyTailThenHead(s: seq<int8>, c: seq<int8>, get: nat, put: nat, n: nat, gb: nat, gf: nat)
    requires get <= |s| && put <= get && 0 < n && c == s[get..] + s[..put]
    requires gb == Min(n, |s| - get) && gf == Min(n - gb, put)
    ensures gb + gf == Min(n, |c|) && (gf > 0 ==> gb == |s| - get)
    ensures forall k :: 0 <= k < gb ==> c[k] == s[get + k]
    ensures forall k :: gb <= k < gb + gf ==> c[k] == s[k - gb]
    ensures var g := if gf > 0 then gf else get + gb;
      if g == put then c[gb + gf..] == [] else Occupied(s, g, put, false) == c[gb + gf..]
  {
    if gf == 0 {
      assert c[gb..] == s[get + gb..] + s[..put];
    }
  }

  /** The wrap path of the older `putn` on a buffer that is not full and
      whose contents s0[get..put] do not wrap: pb bytes of data at put and,
      when that reached the end, pf more at the start; put becomes put + pb,
      or pf when the head was used, and may reach |s|. */
  lemma LegacyAppend(s0: seq<int8>, s1: seq<int8>, get: nat, put: nat, data: seq<int8>, pb: nat, pf: nat)
    requires |s0| == |s1| && get <= put <= |s0| && 0 < |data| && pb + pf == |data|
    requires put + pb <= |s0| && (pf > 0 ==> put + pb == |s0| && pf <= get)
    requires forall k :: 0 <= k < |s1| ==>
      s1[k] == if put <= k < put + pb then data[k - put] else if k < pf then data[pb + k] else s0[k]
    ensures var p := if pf > 0 then pf else put + pb;
      Occupied(s1, get, p, p == get) == Occupied(s0, get, put, false) + data
  {
    if pf > 0 {
      AppendWrapping(s0, s1, get, put, data, pb, pf);
    } else {
      assert s1[get..put + pb] == s0[get..put] + data;
    }
  }

  /** An offset moved count bytes forward the way the older `getn`/`putn`
      move it: one subtraction of SIZE once it has passed the end, so it may
      come to rest on SIZE itself. */
  function Advance(off: nat, count: nat, size: nat): (r: nat)
    requires 0 < size && off <= size && count <= size
    ensures r <= size && (r == off + count || r + size == off + count)
    ensures r < size ==> r == (off + count) % size
  {
    if off + count <= size then
      ModWrap(off + count, size);
      off + count
    else if off + count == 2 * size then size
    else
      ModOnce(off + count, size);
      off + count - size
  }

  /** Sending r bytes of the run at get from a non-empty ring laid out in s,
      offsets in [0, |s|], with the full flag kept: the r oldest bytes leave,
      unless the flag is set and get meets put, or put = |s| and get reaches
      |s|; then the new offsets make the whole of s held again. */
  lemma SendDrop(s: seq<int8>, get: nat, put: nat, full: bool, r: nat)
    requires 0 < |s| && get <= |s| && put <= |s| && (full || get != put)
    requires 0 < r <= (if get < put then put - get else |s| - get)
    ensures var g := (get + r) % |s|;
      var again := (full && g == put) || (put == |s| && get + r == |s|);
      var s1 := if g == put then Occupied(s, 0, 0, full) else Occupied(s, g, put, full);
      (again ==> s1 == s) && (!again ==> s1 == Occupied(s, get, put, full)[r..])
  {
    ModWrap(get + r, |s|);
    if get >= put && get + r < |s| {
      assert (s[get..] + s[..put])[r..] == s[get + r..] + s[..put];
    }
    if get >= put && get + r == |s| {
      assert (s[get..] + s[..put])[r..] == s[..put];
    }
  }

  class Buffer {
    const size: nat          // SIZE
    const buf: array<int8>   // _buf
    const dir: Dir           // _stats.dir
    const fct: Transfer      // _sync_fct
    var get: nat             // _off.get
    var put: nat             // _off.put
    var full: bool           // _stats.is_full
    var eof: bool            // _stats.eof

    /** Shape of the object: SIZE bytes, offsets in [0, SIZE]. */
    ghost predicate Valid()
      reads this
    {
      0 < size == buf.Length && get <= size && put <= size
    }

    /** The offset range the newer revision keeps: both offsets below SIZE. */
    predicate InRange()
      reads this
    {
      get < size && put < size
    }

    /** A set full flag means the offsets meet. */
    ghost predicate Coherent()
      reads this
    {
      full ==> get == put
    }

    /** The bytes in the buffer, oldest first. */
    ghost function Contents(): (c: seq<int8>)
      reads this, buf
      requires Valid()
      ensures |c| == InAvail()
    {
      Occupied(buf[..], get, put, full)
    }

    constructor (size: nat, d: Dir, fct: Transfer)
      requires 0 < size
      ensures Valid() && InRange() && Coherent()
      ensures this.size == size && dir == d && this.fct == fct && fresh(buf)
      ensures get == 0 && put == 0 && !full && !eof
      ensures Contents() == []
    {
      this.size := size;
      buf := new int8[size](_ => 0);
      dir, this.fct := d, fct;
      get, put := 0, 0;
      full, eof := false, false;
    }

    /** `is_full`: a full buffer holds SIZE bytes; with both offsets below
        SIZE it is full exactly then. */
    predicate IsFull(): (r: bool)
      reads this
      ensures Valid() && Coherent() && r ==> InAvail() == size
      ensures Valid() && InRange() && Coherent() ==> (r <==> InAvail() == size)
    {
      full
    }

    /** `is_empty`: an empty buffer holds no bytes; with both offsets below
        SIZE it is empty exactly then. */
    predicate IsEmpty(): (r: bool)
      reads this
      ensures Valid() && r ==> InAvail() == 0
      ensures Valid() && InRange() ==> (r <==> InAvail() == 0)
    {
      !full && get == put
    }

    /** `eof`: the flag a `sync` sets when its transfer function returns 0. */
    predicate Eof()
      reads this
    {
      eof
    }

    /** `in_avail`, with the same formula as the newer revision. */
    function InAvail(): (r: nat)
      reads this
      requires Valid()
      ensures r <= size
      ensures !full && get == put ==> r == 0
      ensures InRange() ==> (r == 0 <==> !full && get == put)
    {
      if !full && get == put then 0
      else if get < put then put - get
      else (size - get) + put
    }

    /** `clear`: offsets and flags reset; the direction is kept. */
    method Clear()
      requires Valid()
      modifies this
      ensures Valid() && InRange() && Coherent()
      ensures get == 0 && put == 0 && !full && !eof
      ensures Contents() == []
    {
      get, put := 0, 0;
      full, eof := false, false;
    }

    /** `_sync_avail[dir]` at `_sync_off` (put for input, get for output):
        the contiguous free run at put for input, the contiguous run of held
        bytes at get for output. */
    function SyncAvail(): (r: nat)
      reads this
      requires Valid()
      ensures var off := if dir == In then put else get; off + r <= size
      ensures dir == Out && !IsEmpty() && InRange() ==> 0 < r <= InAvail()
      ensures dir == In && !full && InRange() ==> 0 < r <= size - InAvail()
    {
      match dir
      case Out => if get < put then put - get else size - get
      case In => if put < get then get - put else size - put
    }

    /** `sync`: nothing to do for a full input or an empty output buffer;
        otherwise one call of the transfer function on the run at the
        direction's offset. 0 records end of file, a negative result reports
        -1, and r > 0 advances that offset by r modulo SIZE (see Received and
        Sent); when the offsets then meet, input sets the full flag and
        output puts both offsets back to 0 without clearing it. */
    method Sync() returns (rc: int)
      requires Valid() && Bounded(fct) && (dir == In ==> Delivers(fct))
      modifies this`get, this`put, this`full, this`eof, buf
      ensures Valid()
      ensures rc == (if !old(Idle()) && fct(old(Run())).ret < 0 then -1 else 0)
      ensures old(Idle()) || fct(old(Run())).ret < 0 ==> unchanged(this, buf)
      ensures !old(Idle()) && fct(old(Run())).ret == 0 ==>
        eof && get == old(get) && put == old(put) && full == old(full) && unchanged(buf)
      ensures var reply := fct(old(Run()));
        old(dir == In && !full) && reply.ret > 0 ==>
          eof == old(eof) && Received(old(get), old(put), old(buf[..]), reply.data[..reply.ret])
      ensures var r := fct(old(Run())).ret;
        old(dir == Out && !IsEmpty()) && r > 0 ==>
          eof == old(eof) && unchanged(buf) && Sent(old(get), old(put), old(full), old(Contents()), r)
    {
      ghost var run0 := Run();
      if Idle() {
        return 0;
      }
      var off := if dir == In then put else get;
      var reply := fct(buf[off..off + SyncAvail()]);
      assert reply == fct(run0);
      if reply.ret == 0 {
        eof := true;
        return 0;
      }
      if !(reply.ret > 0) {
        return -1;
      }
      if dir == In {
        Receive(reply.data[..reply.ret]);
      } else {
        ghost var get0, put0, full0, c0 := get, put, full, Contents();
        Send(reply.ret);
        assert Sent(get0, put0, full0, c0, reply.ret);
      }
      rc := 0;
    }

    /** The early return of `sync`: a full input or an empty output buffer.
        With both offsets below SIZE that is exactly when an input buffer has
        no room left or an output buffer holds nothing. */
    predicate Idle(): (r: bool)
      reads this
      ensures Valid() && InRange() && Coherent() ==>
        (r <==> (dir == In && InAvail() == size) || (dir == Out && InAvail() == 0))
    {
      (dir == In && IsFull()) || (dir == Out && IsEmpty())
    }

    /** The run `sync` hands to the transfer function. */
    ghost function Run(): seq<int8>
      reads this, buf
      requires Valid()
    {
      var off := if dir == In then put else get;
      buf[off..off + SyncAvail()]
    }

    /** The state after an input `sync` received data at put0 into the
        array s0 holding get0: put moves by |data| modulo SIZE, the full flag
        is set when put meets get, and the data is appended to the contents,
        except when get0 = SIZE and the data reached the end of the array:
        then put wraps to 0 without meeting get and the contents are empty. */
    ghost predicate Received(get0: nat, put0: nat, s0: seq<int8>, data: seq<int8>)
      reads this, buf
      requires Valid() && get0 <= size && put0 <= size && |s0| == size
    {
      var p := (put0 + |data|) % size;
      get == get0 && put == p && full == (get0 == p) &&
      if get0 == size && put0 + |data| == size then Contents() == []
      else Contents() == Occupied(s0, get0, put0, false) + data
    }

    /** The state after an output `sync` sent r bytes from get0: get moves by r
        modulo SIZE and both offsets go back to 0 when it meets put0; the full
        flag is kept. The r bytes leave the contents c0, except in two cases
        where the whole array is held again: the flag was set and get met put
        (both reset with the flag still set), or put0 = SIZE and get reached
        SIZE (get wraps to 0 without meeting put). */
    ghost predicate Sent(get0: nat, put0: nat, full0: bool, c0: seq<int8>, r: nat)
      reads this, buf
      requires Valid() && 0 < size
    {
      var g := (get0 + r) % size;
      var again := (full0 && g == put0) || (put0 == size && get0 + r == size);
      full == full0 &&
      (if g == put0 then get == 0 && put == 0 else get == g && put == put0) &&
      (again ==> Contents() == buf[..]) &&
      (!again && r <= |c0| ==> Contents() == c0[r..])
    }

    /** The receive half of `sync`: data stored at put, put advanced modulo SIZE. */
    method Receive(data: seq<int8>)
      requires Valid() && !full && 0 < |data| <= SyncAvail() && dir == In
      modifies this`put, this`full, buf
      ensures Valid()
      ensures Received(old(get), old(put), old(buf[..]), data)
    {
      ghost var s0 := buf[..];
      ghost var p0 := put;
      MemCopy(buf, put, data);
      if put < get {
        AppendInGap(s0, buf[..], get, p0, data);
      } else {
        AppendTailHead(s0, buf[..], get, p0, data, |data|, 0);
      }
      ModWrap(put + |data|, size);
      put := (put + |data|) % size;
      if get == put {
        full := true;
      }
    }

    /** The send half of `sync`: get advanced by r modulo SIZE, both offsets
        back to 0 when it meets put. */
    method Send(r: nat)
      requires Valid() && !IsEmpty() && 0 < r <= SyncAvail() && dir == Out
      modifies this`get, this`put
      ensures Valid()
      ensures Sent(old(get), old(put), old(full), old(Contents()), r)
    {
      SendDrop(buf[..], get, put, full, r);
      ModWrap(get + r, size);
      get := (get + r) % size;
      if get == put {
        get, put := 0, 0;
      }
    }

    /** `getn`: as in the newer revision the oldest min(n, in_avail()) bytes
        are copied to dst and leave the contents, but the wrap path leaves
        get = get + gb without reducing it, so get may come to equal SIZE. */
    method GetN(dst: array<int8>, n: nat) returns (count: nat)
      requires Valid() && dst != buf && n <= dst.Length
      modifies this`get, this`put, this`full, dst
      ensures Valid()
      ensures count == Min(n, old(InAvail()))
      ensures forall k :: 0 <= k < dst.Length ==>
        dst[k] == if k < count then old(Contents())[k] else old(dst[k])
      ensures Contents() == old(Contents())[count..]
      ensures n == 0 || old(IsEmpty()) ==> unchanged(this)
      ensures count == 0 ==> get == old(get) && put == old(put)
      ensures count > 0 ==> !full && Drained(old(get), old(put), count)
    {
      ghost var c := Contents();
      if n == 0 || IsEmpty() {
        return 0;
      }
      full := false;
      if get < put {
        var getSize := Min(n, put - get);
        MemCopy(dst, 0, buf[get..get + getSize]);
        get := get + getSize;
        if get == put {
          get, put := 0, 0;
        }
        return getSize;
      }
      assert c == buf[get..] + buf[..put];
      count := GetTailHead(dst, n, c);
    }

    /** The wrap path of `getn`: tail [get, SIZE) first, then head [0, put). */
    method GetTailHead(dst: array<int8>, n: nat, ghost c: seq<int8>) returns (count: nat)
      requires Valid() && dst != buf && 0 < n <= dst.Length && !full && put <= get
      requires c == buf[get..] + buf[..put]
      modifies this`get, this`put, dst
      ensures Valid()
      ensures count == Min(n, |c|)
      ensures forall k :: 0 <= k < dst.Length ==>
        dst[k] == if k < count then c[k] else old(dst[k])
      ensures Contents() == c[count..]
      ensures count == 0 ==> get == old(get) && put == old(put)
      ensures count > 0 ==> Drained(old(get), old(put), count)
    {
      var gbSize := Min(n, size - get);
      var gfSize := Min(n - gbSize, put);
      LegacyTailThenHead(buf[..], c, get, put, n, gbSize, gfSize);
      TakeTailHead(dst, gbSize, gfSize, c);
      if gbSize > 0 {
        get := get + gbSize;
      }
      if gfSize > 0 {
        get := gfSize;
      }
      if get == put {
        get, put := 0, 0;
      }
      count := gbSize + gfSize;
    }

    /** Where the offsets of `getn` end after count bytes were taken from
        get0: get advances as Advance says, and both go back to 0 when it
        meets put0. */
    ghost predicate Drained(get0: nat, put0: nat, count: nat)
      reads this
    {
      0 < size && get0 <= size && count <= size &&
      var g := Advance(get0, count, size);
      if g == put0 then get == 0 && put == 0 else get == g && put == put0
    }

    /** The copies of the wrap path of `getn`: gb bytes of the tail at get,
        then gf bytes of the head, which are the first gb + gf bytes of c. */
    method TakeTailHead(dst: array<int8>, gb: nat, gf: nat, ghost c: seq<int8>)
      requires Valid() && dst != buf && gb + gf <= dst.Length && get + gb <= size && gf <= size
      requires gb + gf <= |c|
      requires forall k :: 0 <= k < gb ==> c[k] == buf[get + k]
      requires forall k :: gb <= k < gb + gf ==> c[k] == buf[k - gb]
      modifies dst
      ensures forall k :: 0 <= k < dst.Length ==>
        dst[k] == if k < gb + gf then c[k] else old(dst[k])
    {
      if gb > 0 {
        MemCopy(dst, 0, buf[get..get + gb]);
      }
      if gf > 0 {
        MemCopy(dst, gb, buf[..gf]);
      }
    }

    /** `putn`: as in the newer revision the first min(n, SIZE - in_avail())
        bytes of src are appended, but the wrap path leaves put = put + pb
        without reducing it, so put may come to equal SIZE with the full flag
        clear. */
    method PutN(src: seq<int8>, n: nat) returns (count: nat)
      requires Valid() && n <= |src|
      modifies this`put, this`full, buf
      ensures Valid() && get == old(get)
      ensures count == if old(full) then 0 else Min(n, size - old(InAvail()))
      ensures Contents() == old(Contents()) + src[..count]
      ensures n == 0 || old(full) ==> unchanged(this)
      ensures count == 0 ==> put == old(put) && full == old(full) && buf[..] == old(buf[..])
      ensures count > 0 ==> put == Advance(old(put), count, size) && full == (get == put)
    {
      if n == 0 || IsFull() {
        return 0;
      }
      if put < get {
        ghost var s0 := buf[..];
        var putSize := Min(n, get - put);
        MemCopy(buf, put, src[..putSize]);
        AppendInGap(s0, buf[..], get, put, src[..putSize]);
        put := put + putSize;
        if get == put {
          full := true;
        }
        return putSize;
      }
      count := PutTailHead(src, n);
    }

    /** The wrap path of `putn`: [put, SIZE) first, then [0, get). */
    method PutTailHead(src: seq<int8>, n: nat) returns (count: nat)
      requires Valid() && 0 < n <= |src| && !full && get <= put
      modifies this`put, this`full, buf
      ensures Valid() && get == old(get)
      ensures count == Min(n, size - old(InAvail()))
      ensures Contents() == old(Contents()) + src[..count]
      ensures count == 0 ==> put == old(put) && full == old(full) && buf[..] == old(buf[..])
      ensures count > 0 ==> put == Advance(old(put), count, size) && full == (get == put)
    {
      ghost var s0 := buf[..];
      ghost var p0 := put;
      var pbSize := Min(n, size - put);
      var pfSize := Min(n - pbSize, get);
      if pbSize > 0 {
        MemCopy(buf, put, src[..pbSize]);
        put := put + pbSize;
      }
      if pfSize > 0 {
        MemCopy(buf, 0, src[pbSize..pbSize + pfSize]);
        put := pfSize;
      }
      if pbSize + pfSize > 0 {
        LegacyAppend(s0, buf[..], get, p0, src[..pbSize + pfSize], pbSize, pfSize);
      }
      if get == put {
        full := true;
      }
      count := pbSize + pfSize;
    }
  }

  /** A receive function that fills the whole run it is offered with ones. */
  function FillOnes(run: seq<int8>): (reply: Reply)
    ensures reply.ret == |run| == |reply.data|
    ensures forall k :: 0 <= k < |reply.data| ==> reply.data[k] == 1
  {
    Reply(|run|, seq(|run|, _ => 1))
  }

  /** A four-byte output buffer given four bytes: the wrap path of `putn`
      leaves put = 4 = SIZE with the full flag clear, outside the offset
      range [0, SIZE) the newer revision keeps. One `sync` sends all four,
      get wraps to 0 without meeting put, and the buffer still holds four
      bytes, the ones just sent. */
  method ResendScenario() returns (accepted: nat, rc: int, left: nat, out: Buffer)
    ensures accepted == 4 && rc == 0 && left == 4
    ensures out.size == 4 && out.put == 4 && out.get == 0 && !out.full && !out.InRange()
  {
    out := new Buffer(4, Out, SendAll);
    accepted := out.PutN([1, 2, 3, 4], 4);
    rc := out.Sync();
    left := out.InAvail();
  }

  /** A four-byte input buffer filled by one `sync` and emptied by
      `getn(4)`, which leaves get = 4 = SIZE and put = 0, outside the offset
      range [0, SIZE). The next `sync` receives four more bytes at put; put
      wraps to 0 without meeting get, the full flag stays clear and
      in_avail() is 0: the four bytes are lost. */
  method ReceiveLossScenario() returns (taken: nat, lost: nat, stuck: bool, inp: Buffer)
    ensures taken == 4 && lost == 0 && stuck
    ensures inp.size == 4 && inp.get == 4 && inp.put == 0 && !inp.full && !inp.InRange()
  {
    inp := new Buffer(4, In, FillOnes);
    var rc := inp.Sync();
    var dst := new int8[4];
    taken := inp.GetN(dst, 4);
    rc := inp.Sync();
    lost := inp.InAvail();
    stuck := !inp.IsEmpty();
  }
}

=== FILE: obuffer.dfy ===
/** `obuffer<SIZE>` of srcs/buffer/nw_obuffer.hpp: a ring buffer drained by a
    send function. The C++ class derives from `buffer<SIZE>`; here it holds
    the ring it extends, and getn/putn are those of the ring. */
module OutputRing {
  import opened Typedef
  import opened Ring

  class OBuffer {
    const ring: Buffer

    constructor (size: nat)
      requires 0 < size
      ensures fresh(ring) && fresh(ring.buf)
      ensures ring.Valid() && ring.Coherent() && ring.Rewound()
      ensures ring.size == size && ring.Contents() == [] && !ring.eof
    {
      ring := new Buffer(size);
    }

    /** `sync` as written: unless the buffer is empty, one call of the send
        function on the run at get. A zero result records end of file, a
        negative one reports -1, and r > 0 sent bytes are consumed (see
        Consume); the full flag is never cleared. */
    method Sync(fct: Transfer) returns (rc: int)
      requires ring.Valid() && Bounded(fct)
      modifies ring`get, ring`put, ring`eof
      ensures ring.Valid() && ring.full == old(ring.full)
      ensures var r := fct(old(ring.buf[ring.get..ring.get + ring.DataRun()])).ret;
        rc == (if !old(ring.IsEmpty()) && r < 0 then -1 else 0)
      ensures old(ring.IsEmpty()) ==> unchanged(ring)
      ensures var r := fct(old(ring.buf[ring.get..ring.get + ring.DataRun()])).ret;
        !old(ring.IsEmpty()) && r < 0 ==> unchanged(ring)
      ensures var r := fct(old(ring.buf[ring.get..ring.get + ring.DataRun()])).ret;
        !old(ring.IsEmpty()) && r == 0 ==> ring.eof && ring.get == old(ring.get) && ring.put == old(ring.put)
      ensures var r := fct(old(ring.buf[ring.get..ring.get + ring.DataRun()])).ret;
        !old(ring.IsEmpty()) && r > 0 ==> ring.eof == old(ring.eof) && Consumed(old(ring.get), old(ring.put), r)
    {
      if ring.IsEmpty() {
        return 0;
      }
      var run := ring.DataRun();
      var reply := fct(ring.buf[ring.get..ring.get + run]);
      if reply.ret == 0 {
        ring.eof := true;
        return 0;
      }
      if !(reply.ret > 0) {
        return -1;
      }
      Consume(reply.ret);
      rc := 0;
    }

    /** Where the offsets of `sync` end after r bytes were sent from get0:
        get moves by r modulo SIZE and both go back to 0 when get meets put0. */
    ghost predicate Consumed(get0: nat, put0: nat, r: nat)
      reads ring
    {
      0 < ring.size &&
      var g := (get0 + r) % ring.size;
      if g == put0 then ring.get == 0 && ring.put == 0 else ring.get == g && ring.put == put0
    }

    /** The offset update of `sync` after r > 0 bytes of the run at get were
        sent, the full flag left as it was. From a buffer that is not full the
        r bytes leave the contents. From a full one they leave it too but the
        ring invariant is lost, and when all SIZE bytes were sent the buffer
        reports itself full again, holding the bytes just sent. */
    method Consume(r: nat)
      requires ring.Valid() && !ring.IsEmpty() && 0 < r <= ring.DataRun()
      modifies ring`get, ring`put
      ensures ring.Valid() && Consumed(old(ring.get), old(ring.put), r)
      ensures !ring.full ==> ring.Contents() == old(ring.Contents())[r..] && ring.Rewound()
      ensures ring.full && old(ring.Coherent()) && r < ring.size ==>
        ring.Contents() == old(ring.Contents())[r..] && !ring.Coherent()
      ensures ring.full && old(ring.Coherent()) && r == ring.size ==>
        ring.get == 0 && ring.put == 0 && ring.InAvail() == ring.size && ring.Contents() == ring.buf[..]
    {
      if !ring.full || ring.get == ring.put {
        DropRun(ring.buf[..], ring.get, ring.put, ring.full, r);
      }
      ModWrap(ring.get + r, ring.size);
      ring.get := (ring.get + r) % ring.size;
      if ring.get == ring.put {
        ring.get, ring.put := 0, 0;
      }
    }

    /** `sync` with the full flag cleared once bytes have been sent, as `getn`
        does: the r sent bytes leave the contents and the ring invariant is kept. */
    method DrainSync(fct: Transfer) returns (rc: int)
      requires ring.Valid() && ring.Coherent() && Bounded(fct)
      modifies ring`get, ring`put, ring`full, ring`eof
      ensures ring.Valid() && ring.Coherent() && (old(ring.Rewound()) ==> ring.Rewound())
      ensures var r := fct(old(ring.buf[ring.get..ring.get + ring.DataRun()])).ret;
        rc == (if !old(ring.IsEmpty()) && r < 0 then -1 else 0)
      ensures old(ring.IsEmpty()) ==> unchanged(ring)
      ensures var r := fct(old(ring.buf[ring.get..ring.get + ring.DataRun()])).ret;
        !old(ring.IsEmpty()) && r < 0 ==> unchanged(ring)
      ensures var r := fct(old(ring.buf[ring.get..ring.get + ring.DataRun()])).ret;
        !old(ring.IsEmpty()) && r == 0 ==>
          ring.eof && ring.get == old(ring.get) && ring.put == old(ring.put) && ring.full == old(ring.full)
      ensures var r := fct(old(ring.buf[ring.get..ring.get + ring.DataRun()])).ret;
        !old(ring.IsEmpty()) && r > 0 ==>
          ring.eof == old(ring.eof) && !ring.full && ring.Contents() == old(ring.Contents())[r..] &&
          ring.InAvail() == old(ring.InAvail()) - r
    {
      if ring.IsEmpty() {
        return 0;
      }
      var run := ring.DataRun();
      var reply := fct(ring.buf[ring.get..ring.get + run]);
      if reply.ret == 0 {
        ring.eof := true;
        return 0;
      }
      if !(reply.ret > 0) {
        return -1;
      }
      ConsumeClearing(reply.ret);
      rc := 0;
    }

    /** Consume with the full flag cleared: the r sent bytes leave the
        contents and the ring invariant holds afterwards. */
    method ConsumeClearing(r: nat)
      requires ring.Valid() && ring.Coherent() && !ring.IsEmpty() && 0 < r <= ring.DataRun()
      modifies ring`get, ring`put, ring`full
      ensures ring.Valid() && ring.Coherent() && ring.Rewound() && !ring.full
      ensures Consumed(old(ring.get), old(ring.put), r)
      ensures ring.Contents() == old(ring.Contents())[r..]
      ensures ring.InAvail() == old(ring.InAvail()) - r
    {
      DropRun(ring.buf[..], ring.get, ring.put, ring.full, r);
      ModWrap(ring.get + r, ring.size);
      ring.get := (ring.get + r) % ring.size;
      ring.full := false;
      if ring.get == ring.put {
        ring.get, ring.put := 0, 0;
      }
    }
  }

  /** Four bytes fill a four-byte output buffer and one `sync` sends all
      four. As written the buffer still reports itself full, `putn` accepts
      nothing, and `getn` (like the next `sync`) hands out the same four
      bytes again. */
  method FullDrainScenario() returns (stillFull: bool, accepted: nat, stale: seq<int8>)
    ensures stillFull && accepted == 0 && stale == [1, 2, 3, 4]
  {
    var out := new OBuffer(4);
    var n := out.ring.PutN([1, 2, 3, 4], 4);
    assert out.ring.IsFull();
    assert out.ring.buf[..] == out.ring.Contents() == [1, 2, 3, 4];
    var rc := out.Sync(SendAll);
    stillFull := out.ring.IsFull();
    accepted := out.ring.PutN([5], 1);
    var dst := new int8[4];
    n := out.ring.GetN(dst, 4);
    stale := dst[..];
  }

  /** The same exchange with the full flag cleared: the buffer is empty
      after the send and takes new bytes. */
  method ClearedDrainScenario() returns (left: nat, accepted: nat)
    ensures left == 0 && accepted == 1
  {
    var out := new OBuffer(4);
    var n := out.ring.PutN([1, 2, 3, 4], 4);
    assert out.ring.IsFull();
    var rc := out.DrainSync(SendAll);
    left := out.ring.InAvail();
    accepted := out.ring.PutN([5], 1);
  }
}

=== FILE: typedef.dfy ===
/** Types shared by the whole library: fixed-width integers, the address-family
    and socket-type enumerations with their name tables, and the error kinds the
    library throws, modelled as values. */
module Typedef {

  newtype int8 = x: int | -0x80 <= x < 0x80
  newtype uint8 = x: int | 0 <= x < 0x100
  newtype uint16 = x: int | 0 <= x < 0x1_0000
  newtype uint32 = x: int | 0 <= x < 0x1_0000_0000

  /** `sa_family`: an enumeration over `sa_family_t`, so a storage header may
      carry any 16-bit tag, named or not. The named values are Linux's. */
  type SaFamily = uint16

  const UNSPEC: SaFamily := 0       // AF_UNSPEC
  const INET: SaFamily := 2         // AF_INET
  const INET6: SaFamily := 10       // AF_INET6
  const INET6V4M: SaFamily := 0xFFFF  // ~0 as sa_family_t: resolution-only pseudo family

  /** `sock_type` */
  datatype SockType = UnspecType | Stream | Dgram | SeqPacket | Raw | Rdm

  /** The exceptions the library raises. */
  datatype Error =
    | LogicError(msg: string)      // nw::logic_error
    | SystemError(errno: int)      // nw::system_error built from errno
    | OutOfRange                   // std::out_of_range thrown by std::map::at
    | NullString                   // std::string built from a null C string

  datatype Option<T> = None | Some(value: T)

  datatype Result<T> = Ok(value: T) | Err(error: Error)

  const FamilyNames: map<SaFamily, string> :=
    map[INET := "AF_INET", INET6 := "AF_INET6", UNSPEC := "AF_UNSPEC"]

  /** `sa_family_str`: a lookup with `at`, so a family without an entry
      (INET6V4M, or any unnamed tag) raises out_of_range. */
  function SaFamilyStr(family: SaFamily): (r: Result<string>)
    ensures r.Ok? <==> family == INET || family == INET6 || family == UNSPEC
    ensures r.Err? ==> r.error == OutOfRange
    ensures family == INET ==> r == Ok("AF_INET")
    ensures family == INET6 ==> r == Ok("AF_INET6")
    ensures family == UNSPEC ==> r == Ok("AF_UNSPEC")
  {
    if family in FamilyNames then Ok(FamilyNames[family]) else Err(OutOfRange)
  }

  const TypeNames: map<SockType, string> :=
    map[Stream := "STREAM", Dgram := "DGRAM", SeqPacket := "SEQPACKET", Raw := "RAW", Rdm := "RDM"]

  /** `sock_type_str`: likewise a lookup with `at`; UNSPEC has no entry. */
  function SockTypeStr(t: SockType): (r: Result<string>)
    ensures r.Ok? <==> t != UnspecType
    ensures r.Err? ==> r.error == OutOfRange
    ensures t == Stream ==> r == Ok("STREAM")
    ensures t == Dgram ==> r == Ok("DGRAM")
    ensures t == SeqPacket ==> r == Ok("SEQPACKET")
    ensures t == Raw ==> r == Ok("RAW")
    ensures t == Rdm ==> r == Ok("RDM")
  {
    if t in TypeNames then Ok(TypeNames[t])
    else
      assert t != Stream && t != Dgram && t != SeqPacket && t != Raw && t != Rdm;
      Err(OutOfRange)
  }

  /** Distinct families get distinct names, so a rendered name identifies its family. */
  lemma SaFamilyStrInjective(f: SaFamily, g: SaFamily)
    requires SaFamilyStr(f).Ok? && SaFamilyStr(f) == SaFamilyStr(g)
    ensures f == g
  {
  }

  /** Distinct socket types get distinct names. */
  lemma SockTypeStrInjective(s: SockType, t: SockType)
    requires SockTypeStr(s).Ok? && SockTypeStr(s) == SockTypeStr(t)
    ensures s == t
  {
  }
}
